=== FILE: README.md ===
# Space console game: the coroutine core in Dafny

`main.py` is a terminal space game. Every moving thing on screen is a
coroutine. A scheduler (`async_draw`) advances each coroutine by one step per
tick. This project models the deterministic core under the drawing calls:

- The scheduler pass: it takes a snapshot of `COROUTINES`, resumes each
  listed coroutine once, and calls `COROUTINES.pop(index)` with the
  snapshot index of a coroutine that returned.
- The tick-counted `sleep` and the blinking star `blink`.
- The pilot `run_spaceship` and the frame flipper `animate_spaceship`.
- The projectile `fire`.
- The falling obstacle `fly_garbage` and its spawner `fill_orbit_with_garbage`.
- The coroutine list that `draw` builds at start-up.

Each coroutine is a state datatype in `state.dfy`. A pure resume function
advances it from one suspension to the next and returns a `Step`, which holds:

- the new shared state;
- the coroutines it appended to `COROUTINES`;
- whether it suspended (with its next state) or returned;
- the frames it drew or erased.

The shared state is `OBSTACLES`, `OBSTACLES_IN_LAST_COLLISIONS` and
`SPACESHIP_FRAME`, plus a counter that hands out fresh obstacle identities.
Python's membership tests on these lists compare objects by identity. So
every `Obstacle` carries an identity, and `current_obstacle.row += speed`
moves every registry entry with that identity.

The scheduler keeps `COROUTINES` as a list of coroutine identities. It also
keeps an arena of every coroutine object ever created, in which a returned
coroutine stays, marked `Done`. This reproduces what happens when Python
resumes a coroutine that has already returned (a `RuntimeError`), and what
happens when `pop` runs past the end of the list (an `IndexError`). Both are
`Fault`s, and either one ends the pass with `Err`.

Some values are inputs rather than part of the model. The canvas extent, the
keys pressed this tick and the random draws are fields of a `Context`. So are
the collaborators whose code lives in modules outside `main.py`:

- `Obstacle.has_collision`;
- `update_speed`;
- `get_frame_size`;
- how many ticks `explode` suspends for.

These are uninterpreted function-typed fields, and nothing is assumed about
them.

Files, one module each:

- `lists.dfy` (`Lists`): the Python list operations `pop(i)`, `remove(x)`
  and `index(x)`, a scan for the first matching element, and a sequence of
  pops applied in order.
- `state.dfy` (`State`): shared state, context, and coroutine states.
- `clock.dfy` (`Clock`): `sleep`.
- `geometry.dfy` (`Geometry`): the two position clamps.
- `stars.dfy` (`Stars`): `blink`.
- `ship.dfy` (`Spaceship`): `run_spaceship` and `animate_spaceship`.
- `shots.dfy` (`Shots`): `fire`.
- `garbage.dfy` (`Garbage`): `fly_garbage` and `fill_orbit_with_garbage`.
- `tasks.dfy` (`Tasks`): resuming a coroutine of any kind, including the
  endless `show_gameover`.
- `scheduler.dfy` (`Scheduler`): the `async_draw` pass and what it does to
  the live list.
- `game.dfy` (`Game`): the coroutines `draw` starts with, and the first
  tick.

## Model

| member | source | states |
|---|---|---|
| Clock.SleepSuspendsExactly | main.py:82-84 | `sleep(tics)` suspends exactly `tics` times before it completes, and not at all when `tics <= 0` |
| Clock.SuspensionsArePending | main.py:82-84 | a sleep with `n` suspensions left suspends exactly `n` more times before it wakes |
| Stars.SleepRunsDown | main.py:89-100 | for every `n` up to the suspensions a star's sleep has left, `n` resumptions keep the star's attribute and count the sleep down by exactly `n` |
| Stars.PhaseLastsItsHold | main.py:89-100 | after an attribute is drawn, the star keeps it for every one of the next `Hold - 1` resumptions, where `Hold` is the length of the following sleep (20, 3, 5, 3); the `Hold`-th resumption draws the next attribute |
| Stars.BlinkCycle | main.py:88-100 | the blink cycle is periodic: 31 resumptions after a star turns dim, it turns dim again |
| Stars.StartsAfterDelay | main.py:87-89 | a star draws nothing during its first `delay` resumptions and turns dim on the next one |
| Geometry.KeepInside | main.py:153-154 | the clamped coordinate is at least 1; it is at most the far edge whenever that edge is at least 1; it is unchanged when already in range; a coordinate at or below 1 becomes 1; one at or past a far edge of at least 1 becomes that edge; it is 1 when the far edge is below 1 |
| Geometry.SpawnColumn | main.py:194-195 | the garbage column is at most `columns`, at least 0 when `columns >= 0`, unchanged when already in `[0, columns]`, 0 when the requested column is at or below 0 (and `columns >= 0`), and `columns` when it is at or past `columns` |
| Spaceship.PilotStaysInside | main.py:143-164 | a started pilot never raises and never changes the shared lists; whenever it suspends, both ship coordinates are at least 1 and at most their far edge, on the canvas extent the pilot read, when that edge is at least 1 |
| Spaceship.ReadsCanvasOnce | main.py:145-154 | the pilot keeps the canvas extent it read on its first resumption; later resumptions give the same result whatever extent the context reports |
| Spaceship.UnclampedInRange | main.py:151-154 | the new speed is what `update_speed` returns, and a move that stays in range lands exactly at position plus speed |
| Spaceship.ErasesTheFrameItDrew | main.py:156-166 | the frame erased on the next resumption is the one captured and drawn before the suspension, whatever `SPACESHIP_FRAME` and the context are by then |
| Spaceship.CrashEndsPilot | main.py:166-175 | the pilot returns exactly when some obstacle collides with the ship; it then appends exactly one `show_gameover`, centred on the start position; otherwise it appends none |
| Spaceship.CrashedMeansSomeHit | main.py:168-170 | a crash is detected exactly when some registry entry reports a collision with the ship's position |
| Spaceship.FiresOnSpace | main.py:161-162 | a pilot that keeps flying appends one `fire(row, column + 2)` moving 0.3 rows up per tick when the fire key is down, and nothing otherwise |
| Spaceship.AnimatorCycles | main.py:178-186 | after showing frame `i`, the next resumption shows frame `i + 1`, or frame 0 after the last one, and only `SPACESHIP_FRAME` changes |
| Spaceship.AnimatorStartsAtFirst | main.py:178-184 | the first resumption shows the first frame; with no frames the coroutine never suspends, which the model reports as the `EndlessAnimation` fault |
| Shots.MuzzleFlash | main.py:103-125 | the flash takes two suspensions and moves nothing; the third resumption is the first flight step, on the canvas extent read at that moment |
| Shots.ReadsCanvasOnce | main.py:113-125 | apart from the resumption after the flash, no resumption of `fire` depends on the canvas extent the context reports |
| Shots.FlightStep | main.py:125-140 | a flight step adds exactly the velocity; the projectile goes on only while strictly inside `0 < row < rows - 1` and `0 < column < columns - 1` of the extent it read, and only when nothing is hit; it keeps that extent and never appends a coroutine |
| Shots.HitRemovesFirstObstacle | main.py:125-134 | on a hit, exactly the first colliding obstacle is popped from the registry with the rest kept in order, its identity is appended to the collision list, and the projectile never flies again |
| Shots.FireKeepsFreshIds | main.py:127-130 | a projectile never reuses an obstacle identity: a hit moves an existing identity from the registry to the collision list |
| Shots.ExplosionRunsOut | main.py:132-134 | the explosion keeps the projectile suspended without touching the world, and `fire` returns on the resumption after the explosion's last suspension |
| Garbage.LaunchRegistersOne | main.py:192-203 | in a world whose obstacle identities are all below the next one, launching appends exactly one obstacle to the registry, with that next identity, at row 0, in the clamped column, with the frame's extent, and leaves the collision list alone |
| Garbage.FlyKeepsFreshIds | main.py:201-214 | `fly_garbage` keeps every identity in use below the next one: it creates one new obstacle and only removes collision markers |
| Garbage.LaunchColumnClamped | main.py:194-201 | the registered obstacle's column lies in `[0, columns]` and is the requested one when that is in range |
| Garbage.FallStep | main.py:205-214 | if its identity is in the collision list, one occurrence is removed and the task returns; otherwise the local row and every registry entry with that identity move down by `speed`, and the other entries stay put |
| Garbage.GuardFailureLeavesObstacle | main.py:201-205 | when the loop guard fails the task returns and its obstacle stays registered: a launch leaves the new obstacle appended, and a falling obstacle stays in place, moved by its last step |
| Garbage.QuietWhileAsleep | main.py:79-84 | a sleeping spawner appends nothing until its sleep runs out |
| Garbage.SpawnsEveryTwelveTicks | main.py:73-79 | every 12 resumptions the spawner appends exactly one garbage coroutine; a canvas narrower than 2 columns makes `randint` raise instead |
| Garbage.SpawnsFreshGarbage | main.py:74-78 | every coroutine the spawner appends is a fresh `fly_garbage` with this tick's random column and frame, falling at 0.5 rows per tick |
| Tasks.OnlyFiniteTasksReturn | main.py:87-186 | only a projectile, a falling obstacle, or a started pilot on a crash ever returns; every other coroutine is an endless loop |
| Tasks.SpawnsAreFresh | main.py:73-173 | every appended coroutine has not run yet: a projectile before its flash, an obstacle before its launch, or a game-over banner |
| Tasks.ResumeKeepsFreshIds | main.py:103-214 | no resumption of any coroutine reuses an obstacle identity |
| Lists.Pop | main.py:67 | `pop(i)` succeeds exactly when `i` is below the length, and drops exactly element `i` with the others kept in order |
| Lists.PopThenAppend | main.py:65-67 | a pop inside the old part of a list is unaffected by what was appended after it |
| Lists.PopTwice | main.py:66-67 | two pops at snapshot indices `a < b` remove the elements at `a` and `b + 1` of the original list and keep the one at `b` |
| Lists.IndexOf | main.py:207 | `index(x)` is the position of the first occurrence |
| Lists.Remove | main.py:207 | `remove(x)` drops exactly one occurrence, the first, and keeps the order of everything else |
| Lists.FirstMatch | main.py:127-128 | the scan stops at the first element that passes the test, and reports none exactly when no element passes |
| Scheduler.PassResumesSnapshot | main.py:63-65 | a pass resumes exactly the snapshot, each coroutine once and in list order, so coroutines appended during the pass first run on the next pass |
| Scheduler.PassStoresSpawned | main.py:63-65 | the coroutines appended during a pass are stored, in order, in the state they were appended in |
| Scheduler.PassFrame | main.py:63-67 | a pass only appends to the coroutine table, and a coroutine outside the rest of the snapshot keeps its state |
| Scheduler.PassPopsBySnapshotIndex | main.py:63-67 | the live list after a pass is the old list plus the appended coroutines, with `pop(index)` applied in order at the snapshot index of every coroutine that returned |
| Scheduler.PassFinishedInOrder | main.py:63-67 | the recorded snapshot indices are increasing and lie in the part of the snapshot still to run |
| Scheduler.PassKeepsValid | main.py:61-67 | every listed coroutine still exists after a pass |
| Scheduler.PassMarksReturnsDone | main.py:64-67 | when no coroutine is listed twice, a snapshot coroutine is finished after the pass exactly when its resumption returned |
| Scheduler.DoneInSnapshotRaises | main.py:63-65 | a finished coroutine left in the snapshot makes the pass raise, whatever ran before it |
| Scheduler.AllSuspend | main.py:63-67 | when every listed coroutine suspends, the pass succeeds and records no returns |
| Scheduler.GameNeverSuspendsDone | main.py:63-65 | the game's coroutines never suspend into the finished state, and resuming a finished coroutine always raises |
| Scheduler.PassKeepsFreshIds | main.py:63-65 | a pass keeps obstacle identities fresh whenever each resumption does, since it passes the shared state only through the resumptions |
| Scheduler.GameKeepsFreshIds | main.py:103-214 | every resumption of the game's coroutines keeps obstacle identities fresh |
| Scheduler.PassOverList | main.py:61-70 | a tick resumes the live list once, in order, keeps the world well formed, and leaves as live list the old list plus the appended coroutines, popped by snapshot index |
| Scheduler.PassMarksDone | main.py:63-67 | the coroutines a tick finishes are exactly the listed ones that returned; unlisted ones are untouched |
| Scheduler.TickKeepsFreshIds | main.py:61-67 | a tick never makes an obstacle identity that is already in use: every identity registered or reported as collided stays below the next one |
| Scheduler.PopEachKeepsDistinct | main.py:67 | popping never makes an element appear twice |
| Scheduler.PassKeepsDistinct | main.py:63-67 | a tick keeps every coroutine listed at most once |
| Scheduler.NoReturnOnlyAppends | main.py:63-67 | if nothing returns, the live list only grows by the appended coroutines |
| Scheduler.OneReturnDropsIt | main.py:63-67 | if exactly one coroutine returns, exactly that one leaves the list, the others keep their order, and it is finished |
| Scheduler.SecondReturnPopsNeighbour | main.py:63-67 | if two coroutines return, the second pop removes the neighbour after the second one, and the finished second coroutine stays listed |
| Scheduler.StaleDoneRaises | main.py:63-65 | a finished coroutine still in the live list makes the next tick raise |
| Scheduler.SecondReturnBreaksNextPass | main.py:61-67 | two returns in one tick make the following tick raise |
| Scheduler.TwoReturnsDropAStar | main.py:63-67 | two spent projectiles listed before a star: the star is popped and never resumed again, while a finished projectile stays listed |
| Scheduler.ThreeReturnsRaise | main.py:63-67 | three spent projectiles in a row: the third pop runs past the end of the live list and raises |
| Game.BootListsEveryCoroutine | main.py:22-49 | start-up succeeds exactly on a canvas of at least 4 by 4 cells; it then lists 99 stars with their delays, the pilot at the centre minus 2 columns, the animator and the spawner, each once, with empty registries whose identities are fresh |
| Game.FirstPassSuspendsAll | main.py:32-49 | with at least one ship frame, the first tick suspends every coroutine `draw` listed, and the live list only grows |

## Left out

- Curses output is not modelled: `addstr`, `draw_frame`, `refresh`, `border`, `beep`. Frame paints are recorded as `Paint` values, but glyphs, attributes and `round()` are not.
- The canvas is the two numbers `rows` and `columns` that `getmaxyx` would report, in the `Context`. Each coroutine reads them where the code calls `getmaxyx` and keeps what it read:
  - `draw` at start-up, as the `rows` and `columns` of `Game.Boot`;
  - the pilot on its first resumption (main.py:146);
  - `fire` on the resumption after its flash (main.py:120);
  - `fly_garbage` at its launch (main.py:192).
  These readings are independent inputs: nothing ties them to one another, so a terminal resized between two of them is allowed.
- Positions are exact `real`s, while Python uses floating point for `row += rows_speed` (main.py:115, 139), `row += speed` (main.py:213-214) and `row + row_speed` (main.py:153). Rounding can therefore change when a loop guard fails. For example, a projectile from row 3.0 at -0.3 rows per tick reaches exactly 0.0 in the model after ten steps and stops. In Python the accumulated sum can stay slightly above 0 and fly one more tick.
- Spaceship.Animate: over an empty frame tuple `animate_spaceship` loops forever without suspending (main.py:181-182), which hangs the game. The model ends that resumption with the `EndlessAnimation` fault instead of diverging.
- Star positions and symbols, and the projectile's glyph, are left out because they only affect drawing.
- Event-loop setup, `TIC_TIMEOUT` pacing, `show_obstacles` and process start-up are plumbing and are left out.
- `Game.Boot` stops where the loop would start.
- `await asyncio.sleep(TIC_TIMEOUT)` between passes is simply the boundary between two `Scheduler.Pass` calls.
- Random values are inputs: the star delays, the garbage column, and the garbage frame.
- `read_controls` is one `Controls` value per tick. Only the pilot reads it.
- `Obstacle.has_collision`, `update_speed`, `get_frame_size` and `explode` live in modules that are not part of this model. They are uninterpreted fields of the `Context`.
- `explode` is reduced to the number of ticks it suspends for, as a function of the impact point.
- Garbage.Fly: the loop guard `rows_number - garbage_rows_count` (main.py:205) names a variable that is defined nowhere. As written, the first resumption of every `fly_garbage` registers its obstacle and then raises `NameError`. The exception escapes `coroutine.send`, so `async_draw` ends on the tick after the first spawn. The model reads the guard as the abstract boolean `keepFalling` of the tick's `Context`, so that the rest of the coroutine can be stated. Every falling obstacle resumed in one tick therefore sees the same guard value. It does not model the `NameError`. No exit-at-the-bottom removal is invented.
- `current_obstacle in OBSTACLES_IN_LAST_COLLISIONS` is modelled as identity comparison. This holds if `Obstacle` keeps the default object equality; its class is not part of this model.
- The centring arithmetic of `show_gameover` is left out. It is modelled as a coroutine that suspends forever with its centre as its state. Its `draw_frame` on every tick is not recorded as a `Paint`.
- `_get_spaceship_frame`, `_get_frames_paths` and the `if __name__` start-up are filesystem and process code, and are left out.
- Python's `min`/`max` over a mix of `int` and `float` is modelled on `real`.

## Behaviour of `main.py` as written

- There is no difficulty counter. The spawner starts one obstacle every 12 ticks from the first tick (main.py:73-79), and the fire key always fires (main.py:161-162).
- `fire` pops the obstacle it hits from `OBSTACLES` itself and appends it to `OBSTACLES_IN_LAST_COLLISIONS` (main.py:127-130). `fly_garbage` later removes that marker and returns (main.py:206-208). See `Shots.HitRemovesFirstObstacle` and `Garbage.FallStep`.
- `fly_garbage` never removes its obstacle when it leaves the bottom of the screen. Apart from a collision, its only exit is the loop guard at main.py:205 (`Garbage.GuardFailureLeavesObstacle`).
- `async_draw` pops a returned coroutine by its index in the snapshot, on a live list that may already have shrunk (main.py:63-67). The second return in a tick pops the wrong coroutine and leaves the finished one listed. A later pop can run past the end and raise. See `Scheduler.SecondReturnPopsNeighbour`, `Scheduler.TwoReturnsDropAStar`, `Scheduler.ThreeReturnsRaise` and `Scheduler.SecondReturnBreaksNextPass`.
- The pilot tests for a crash after its suspension, at the position it drew before suspending (main.py:164-170, `Spaceship.CrashEndsPilot`).

=== FILE: clock.dfy ===
/** The tick-counted `sleep(tics)` coroutine: `for _ in range(tics): await
    asyncio.sleep(0)`. Its whole state is the number of suspensions it still
    has to make. */
module Clock {

  /** What one resumption of a sleep does. */
  datatype Tick = Suspend(left: nat) | Wake

  /** Suspensions a fresh `sleep(tics)` will make. */
  function Start(tics: int): nat
  {
    if tics <= 0 then 0 else tics
  }

  /** Resume a sleep that still has `pending` suspensions to make. */
  function Resume(pending: nat): (t: Tick)
    ensures t.Wake? <==> pending == 0
    ensures t.Suspend? ==> t.left < pending
  {
    if pending == 0 then Wake else Suspend(pending - 1)
  }

  /** How many resumptions suspend before the one that wakes. */
  function Suspensions(pending: nat): (n: nat)
    decreases pending
  {
    match Resume(pending)
    case Wake => 0
    case Suspend(left) => 1 + Suspensions(left)
  }

  lemma {:induction false} SuspensionsArePending(pending: nat)
    ensures Suspensions(pending) == pending
    decreases pending
  {
    if pending > 0 {
      SuspensionsArePending(pending - 1);
    }
  }

  /** `sleep(tics)` suspends exactly `tics` times before it completes, and
      not at all when `tics <= 0`. */
  lemma SleepSuspendsExactly(tics: int)
    ensures Suspensions(Start(tics)) == if tics <= 0 then 0 else tics
  {
    SuspensionsArePending(Start(tics));
  }
}

=== FILE: game.dfy ===
/** `draw`: the coroutines the game starts with, and what the first tick
    does with them. */
module Game {
  import opened State
  import Scheduler

  /** `STARS_AMOUNT`; `range(1, STARS_AMOUNT)` starts one star fewer. */
  const StarsAmount: nat := 100

  /** The live list `draw` builds: every star, then the pilot, the
      animator and the spawner. */
  const Listed: nat := StarsAmount - 1 + 3

  /** Nothing registered, nothing collided, no frame shown yet. */
  const Empty: Shared := Shared([], [], "", 0)

  /** `draw` up to the start of the scheduler, on a canvas of `rows` by
      `columns` cells. The `k`-th star's random delay is `delays(k)`; its
      random position and symbol only affect drawing. The star-position
      draws `randint(2, rows - 2)` and `randint(2, columns - 2)` raise when
      the canvas is under 4 cells in either direction. */
  function Boot(rows: int, columns: int, delays: nat -> int, frames: seq<string>): Result<Scheduler.World>
  {
    if rows - 2 < 2 || columns - 2 < 2 then Err(EmptyRandomRange)
    else
      var stars := seq(StarsAmount - 1, k requires 0 <= k < StarsAmount - 1 => StarTask(StarStart(delays(k))));
      var pilot := PilotTask(PilotStart(rows as real / 2.0, columns as real / 2.0 - 2.0, frames));
      var tasks := stars + [pilot, AnimatorTask(AnimatorStart(frames)), SpawnerTask(SpawnerStart(columns))];
      Ok(Scheduler.World(Scheduler.Ids(0, |tasks|), tasks, Empty))
  }

  /** `draw` succeeds exactly on a canvas of at least 4 by 4 cells, and then
      lists 99 stars with their delays, then the pilot centred two columns
      left of the middle, the animator and the spawner over the full width,
      each once, in a well-formed world with empty registries. */
  lemma BootListsEveryCoroutine(rows: int, columns: int, delays: nat -> int, frames: seq<string>)
    ensures Boot(rows, columns, delays, frames).Ok? <==> rows >= 4 && columns >= 4
    ensures Boot(rows, columns, delays, frames).Ok? ==>
      var w := Boot(rows, columns, delays, frames).value;
      && Scheduler.Valid(w) && Scheduler.Distinct(w.queue)
      && |w.queue| == Listed && w.shared.obstacles == [] && w.shared.collided == []
      && FreshIds(w.shared)
      && (forall k :: 0 <= k < StarsAmount - 1 ==> w.tasks[w.queue[k]] == StarTask(StarStart(delays(k))))
      && w.tasks[w.queue[Listed - 3]] == PilotTask(PilotStart(rows as real / 2.0, columns as real / 2.0 - 2.0, frames))
      && w.tasks[w.queue[Listed - 2]] == AnimatorTask(AnimatorStart(frames))
      && w.tasks[w.queue[Listed - 1]] == SpawnerTask(SpawnerStart(columns))
  {
  }

  /** With at least one ship frame, the first tick suspends every coroutine
      `draw` listed: nothing returns, nothing raises, and the live list
      keeps its order and only grows, by the spawner's first garbage and a
      projectile if the fire key is down. */
  lemma FirstPassSuspendsAll(ctx: Context, rows: int, columns: int, delays: nat -> int, frames: seq<string>)
    requires rows >= 4 && columns >= 4 && |frames| > 0
    ensures var w := Boot(rows, columns, delays, frames).value;
      var r := Scheduler.Pass(ctx, w);
      && r.Ok?
      && r.value.finished == []
      && r.value.world.queue == w.queue + Scheduler.Ids(Listed, |r.value.spawned|)
  {
    BootListsEveryCoroutine(rows, columns, delays, frames);
    var w := Boot(rows, columns, delays, frames).value;
    var resume := Scheduler.Resumer(ctx);
    forall j | 0 <= j < |w.queue|
      ensures Scheduler.AlwaysSuspends(resume, w.tasks[w.queue[j]])
    {
      var t := w.tasks[w.queue[j]];
      forall s
        ensures resume(s, t).Ok? && resume(s, t).value.run.Yield?
      {
        if j < StarsAmount - 1 {
          assert t == StarTask(StarStart(delays(j)));
        } else if j == Listed - 3 {
          assert t.PilotTask?;
        } else if j == Listed - 2 {
          assert t == AnimatorTask(AnimatorStart(frames));
        } else {
          assert t == SpawnerTask(SpawnerStart(columns));
        }
      }
    }
    Scheduler.AllSuspend(resume, w.queue, 0, w);
    Scheduler.NoReturnOnlyAppends(ctx, w);
  }
}

=== FILE: garbage.dfy ===
/** `fly_garbage`, which registers one obstacle and moves it down, and
    `fill_orbit_with_garbage`, which starts one of those every 12 ticks. */
module Garbage {
  import opened State
  import opened Lists
  import Clock
  import Geometry

  /** The default `speed` of `fly_garbage`, in rows per tick. */
  const FallSpeed: real := 0.5

  /** The argument of the spawner's `sleep`. */
  const SpawnPause: int := 12

  /** `current_obstacle.row += speed`: the obstacle object is shared, so every
      registry entry with its identity moves. */
  function Lower(obstacles: seq<Obstacle>, id: ObstacleId, speed: real): seq<Obstacle>
  {
    seq(|obstacles|, j requires 0 <= j < |obstacles| =>
      if obstacles[j].id == id then obstacles[j].(row := obstacles[j].row + speed) else obstacles[j])
  }

  /** The `while` loop of `fly_garbage` from its guard to its next suspension.
      The guard is the context's `keepFalling`; a marker in the collision list
      is consumed and ends the task. */
  function Descend(ctx: Context, s: Shared, id: ObstacleId, row: real, column: int, art: string,
                   speed: real, paints: seq<Paint>): Step
  {
    if !ctx.keepFalling then Step(s, [], Return, paints)
    else if id in s.collided then Step(s.(collided := Remove(s.collided, id)), [], Return, paints)
    else Step(s, [], Yield(GarbageTask(Falling(id, row, column, art, speed))),
              paints + [Paint(row, column as real, art, false)])
  }

  /** One resumption of `fly_garbage`. */
  function Fly(ctx: Context, s: Shared, d: Debris): Step
  {
    match d
    case Launch(column, art, speed) =>
      var c := Geometry.SpawnColumn(column, ctx.columns);
      var size := ctx.frameSize(art);
      var id := s.nextObstacle;
      var s' := s.(obstacles := s.obstacles + [Obstacle(id, 0.0, c as real, size.0, size.1)],
                   nextObstacle := id + 1);
      Descend(ctx, s', id, 0.0, c, art, speed, [])
    case Falling(id, row, column, art, speed) =>
      var s' := s.(obstacles := Lower(s.obstacles, id, speed));
      Descend(ctx, s', id, row + speed, column, art, speed, [Paint(row, column as real, art, true)])
  }

  /** Launching registers exactly one new obstacle, with a fresh identity, at
      row 0, in the clamped spawn column, with the frame's extent; nothing
      else in the registry changes. */
  lemma LaunchRegistersOne(ctx: Context, s: Shared, column: int, art: string, speed: real)
    requires FreshIds(s)
    ensures var st := Fly(ctx, s, Launch(column, art, speed));
      var c := Geometry.SpawnColumn(column, ctx.columns);
      && st.shared.obstacles
           == s.obstacles + [Obstacle(s.nextObstacle, 0.0, c as real, ctx.frameSize(art).0, ctx.frameSize(art).1)]
      && st.shared.nextObstacle == s.nextObstacle + 1
      && st.shared.collided == s.collided
      && st.spawned == []
      && (ctx.keepFalling ==> st.run == Yield(GarbageTask(Falling(s.nextObstacle, 0.0, c, art, speed))))
  {
  }

  /** `fly_garbage` only hands out identities from `nextObstacle` and only
      removes collision markers, so every identity in use stays below it. */
  lemma FlyKeepsFreshIds(ctx: Context, s: Shared, d: Debris)
    requires FreshIds(s)
    ensures FreshIds(Fly(ctx, s, d).shared)
  {
    var s' := Fly(ctx, s, d).shared;
    if d.Falling? && ctx.keepFalling && d.id in s.collided {
      var k := IndexOf(s.collided, d.id);
      forall j | 0 <= j < |s'.collided|
        ensures s'.collided[j] < s'.nextObstacle
      {
        if j < k {
          assert s'.collided[j] == s.collided[j];
        } else {
          assert s'.collided[j] == s.collided[j + 1];
        }
      }
    }
  }

  /** The spawn column lies in `[0, columns]` whenever the canvas has a
      non-negative width, and is the requested column when that is in range. */
  lemma LaunchColumnClamped(ctx: Context, s: Shared, column: int, art: string, speed: real)
    requires ctx.columns >= 0
    ensures var o := Fly(ctx, s, Launch(column, art, speed)).shared.obstacles[|s.obstacles|];
      && 0.0 <= o.column <= ctx.columns as real
      && (0 <= column <= ctx.columns ==> o.column == column as real)
  {
  }

  /** A falling obstacle that finds its identity in the collision list removes
      one occurrence of it and returns; otherwise (while the guard holds) it
      moves down by `speed`, and so does every registry entry with its
      identity, while every other entry stays put. */
  lemma FallStep(ctx: Context, s: Shared, id: ObstacleId, row: real, column: int, art: string, speed: real)
    requires ctx.keepFalling
    ensures var st := Fly(ctx, s, Falling(id, row, column, art, speed));
      && st.spawned == []
      && |st.shared.obstacles| == |s.obstacles|
      && (id in s.collided ==>
            && st.run.Return?
            && multiset(st.shared.collided) == multiset(s.collided) - multiset{id}
            && |st.shared.collided| == |s.collided| - 1)
      && (id !in s.collided ==>
            && st.run == Yield(GarbageTask(Falling(id, row + speed, column, art, speed)))
            && st.shared.collided == s.collided)
      && (forall j :: 0 <= j < |s.obstacles| && s.obstacles[j].id == id ==>
            st.shared.obstacles[j] == s.obstacles[j].(row := s.obstacles[j].row + speed))
      && (forall j :: 0 <= j < |s.obstacles| && s.obstacles[j].id != id ==>
            st.shared.obstacles[j] == s.obstacles[j])
  {
  }

  /** When the loop guard fails the task returns at once and its obstacle is
      left in the registry: there is no exit-at-the-bottom removal. */
  lemma GuardFailureLeavesObstacle(ctx: Context, s: Shared, d: Debris)
    requires !ctx.keepFalling
    ensures var st := Fly(ctx, s, d);
      && st.run.Return?
      && st.shared.collided == s.collided
      && (d.Launch? ==>
            var c := Geometry.SpawnColumn(d.column, ctx.columns);
            st.shared.obstacles
              == s.obstacles + [Obstacle(s.nextObstacle, 0.0, c as real, ctx.frameSize(d.art).0, ctx.frameSize(d.art).1)])
      && (d.Falling? ==> st.shared.obstacles == Lower(s.obstacles, d.id, d.speed))
  {
  }

  /** The `while True` body of `fill_orbit_with_garbage`: pick a column with
      `random.randint(1, width - 1)` (an empty range raises), start a
      `fly_garbage` task, and enter `sleep(12)`. */
  function Release(ctx: Context, width: int): Result<(seq<Task>, Spawner)>
  {
    if width - 1 < 1 then Err(EmptyRandomRange)
    else
      var sleep := Clock.Start(SpawnPause);
      Ok(([GarbageTask(Launch(ctx.spawnColumn, ctx.spawnArt, FallSpeed))], SpawnerSleeping(width, sleep - 1)))
  }

  /** One resumption of `fill_orbit_with_garbage`: the tasks it appends and its
      new state. */
  function Spawn(ctx: Context, sp: Spawner): Result<(seq<Task>, Spawner)>
  {
    match sp
    case SpawnerStart(width) => Release(ctx, width)
    case SpawnerSleeping(width, pending) =>
      match Clock.Resume(pending)
      case Suspend(left) => Ok(([], SpawnerSleeping(width, left)))
      case Wake => Release(ctx, width)
  }

  /** `n` resumptions of the spawner: how many tasks it appended in all, and
      where it ends up. */
  function Spawns(ctx: Context, sp: Spawner, n: nat): Result<(nat, Spawner)>
    decreases n
  {
    if n == 0 then Ok((0, sp))
    else match Spawn(ctx, sp)
      case Err(f) => Err(f)
      case Ok(r) =>
        match Spawns(ctx, r.1, n - 1)
        case Err(f) => Err(f)
        case Ok(rest) => Ok((|r.0| + rest.0, rest.1))
  }

  lemma {:induction false} QuietWhileAsleep(ctx: Context, width: int, pending: nat)
    ensures Spawns(ctx, SpawnerSleeping(width, pending), pending) == Ok((0, SpawnerSleeping(width, 0)))
    decreases pending
  {
    if pending > 0 {
      QuietWhileAsleep(ctx, width, pending - 1);
    }
  }

  /** The spawner appends exactly one garbage task every 12 resumptions; on a
      canvas too narrow for `randint(1, width - 1)` it raises instead. */
  lemma SpawnsEveryTwelveTicks(ctx: Context, width: int)
    ensures width >= 2 ==> Spawns(ctx, SpawnerSleeping(width, 0), 12) == Ok((1, SpawnerSleeping(width, 0)))
    ensures width < 2 ==> Spawns(ctx, SpawnerSleeping(width, 0), 12) == Err(EmptyRandomRange)
  {
    if width >= 2 {
      QuietWhileAsleep(ctx, width, 11);
    }
  }

  /** Every appended task is a fresh `fly_garbage` with the tick's random
      column and art, falling at the default speed. */
  lemma SpawnsFreshGarbage(ctx: Context, sp: Spawner)
    requires Spawn(ctx, sp).Ok?
    ensures var r := Spawn(ctx, sp).value;
      forall k :: 0 <= k < |r.0| ==> r.0[k] == GarbageTask(Launch(ctx.spawnColumn, ctx.spawnArt, 0.5))
  {
  }
}

=== FILE: geometry.dfy ===
/** The two clamps the game applies to positions. */
module Geometry {

  /** `max(1, min(v, hi))`: keeps a spaceship coordinate off the border and
      far enough from the far edge for the whole frame to fit. */
  function KeepInside(v: real, hi: real): (r: real)
    ensures r >= 1.0
    ensures hi >= 1.0 ==> r <= hi
    ensures 1.0 <= v <= hi ==> r == v
    ensures hi < 1.0 ==> r == 1.0
    ensures v <= 1.0 ==> r == 1.0
    ensures 1.0 <= hi <= v ==> r == hi
    ensures r == v || r == hi || r == 1.0
  {
    var m := if v < hi then v else hi;
    if 1.0 < m then m else 1.0
  }

  /** `min(max(column, 0), columns)`: the spawn column of falling garbage. */
  function SpawnColumn(column: int, columns: int): (c: int)
    ensures c <= columns
    ensures columns >= 0 ==> c >= 0
    ensures 0 <= column <= columns ==> c == column
    ensures column <= 0 <= columns ==> c == 0
    ensures column >= columns ==> c == columns
    ensures c == column || c == 0 || c == columns
  {
    var m := if column > 0 then column else 0;
    if m < columns then m else columns
  }
}

=== FILE: lists.dfy ===
/** The Python list operations the game leans on: `pop(i)`, `remove(x)`,
    `x in l`, and the scan for the first element passing a test. */
module Lists {

  datatype Option<+T> = None | Some(value: T)

  /** `l.pop(i)` for a non-negative index; `None` stands for the IndexError
      Python raises when `i` is past the end. */
  function Pop<T>(l: seq<T>, i: nat): (r: Option<seq<T>>)
    ensures r.Some? <==> i < |l|
    ensures r.Some? ==> |r.value| == |l| - 1
    ensures r.Some? ==> forall j :: 0 <= j < i ==> r.value[j] == l[j]
    ensures r.Some? ==> forall j :: i <= j < |r.value| ==> r.value[j] == l[j + 1]
  {
    if i < |l| then Some(l[..i] + l[i + 1..])
    else
      None
  }

  /** Popping inside a prefix commutes with appending at the end. */
  lemma PopThenAppend<T>(l: seq<T>, m: seq<T>, i: nat)
    requires Pop(l, i).Some?
    ensures Pop(l + m, i) == Some(Pop(l, i).value + m)
  {
    var p := Pop(l + m, i).value;
    var q := Pop(l, i).value + m;
    assert |p| == |q|;
    forall j | 0 <= j < |p|
      ensures p[j] == q[j]
    {
      if j < i {
      } else if j < |l| - 1 {
      } else {
        assert p[j] == (l + m)[j + 1] == m[j + 1 - |l|];
      }
    }
    assert p == q;
  }

  /** A sequence of `pop`s applied in order; `None` as soon as one of them
      raises IndexError. */
  function PopEach<T>(l: seq<T>, indices: seq<nat>): Option<seq<T>>
    decreases |indices|
  {
    if |indices| == 0 then Some(l)
    else match Pop(l, indices[0])
      case None => None
      case Some(l') => PopEach(l', indices[1..])
  }

  /** Two pops at increasing indices `a < b`: the second one lands one place
      further on in the original list, at `b + 1`, so the element at `b`
      survives, now at `b - 1`. */
  lemma PopTwice<T>(l: seq<T>, a: nat, b: nat, q: seq<T>)
    requires a < b
    requires PopEach(l, [a, b]) == Some(q)
    ensures b + 1 < |l|
    ensures q == l[..a] + l[a + 1..b + 1] + l[b + 2..]
    ensures q[b - 1] == l[b]
  {
    var l1 := PopTwiceSteps(l, a, b, q);
    PopPop(l, a, b, l1, q);
  }

  /** The intermediate list of two pops. */
  lemma PopTwiceSteps<T>(l: seq<T>, a: nat, b: nat, q: seq<T>) returns (l1: seq<T>)
    requires PopEach(l, [a, b]) == Some(q)
    ensures Pop(l, a) == Some(l1) && Pop(l1, b) == Some(q)
  {
    assert [a] + [b] == [a, b];
    PopEachFirst(l, a, [b], q);
    l1 := Pop(l, a).value;
    assert [b] + [] == [b];
    PopEachFirst(l1, b, [], q);
  }

  /** The first of a sequence of pops that succeeds. */
  lemma PopEachFirst<T>(l: seq<T>, i: nat, rest: seq<nat>, r: seq<T>)
    requires PopEach(l, [i] + rest) == Some(r)
    ensures i < |l| && PopEach(Pop(l, i).value, rest) == Some(r)
  {
    assert ([i] + rest)[0] == i && ([i] + rest)[1..] == rest;
  }

  lemma PopPop<T>(l: seq<T>, a: nat, b: nat, l1: seq<T>, q: seq<T>)
    requires a < b
    requires Pop(l, a) == Some(l1) && Pop(l1, b) == Some(q)
    ensures b + 1 < |l|
    ensures q == l[..a] + l[a + 1..b + 1] + l[b + 2..]
    ensures q[b - 1] == l[b]
  {
    var e := l[..a] + l[a + 1..b + 1] + l[b + 2..];
    assert |q| == |e|;
    forall j | 0 <= j < |q|
      ensures q[j] == e[j]
    {
      if j < a {
        assert q[j] == l1[j];
      } else if j < b {
        assert q[j] == l1[j] == l[j + 1];
      } else {
        assert q[j] == l1[j + 1] == l[j + 2];
      }
    }
    assert q[b - 1] == l1[b - 1];
  }

  /** `l.index(x)`: the position of the first occurrence. */
  function IndexOf<T(==)>(l: seq<T>, x: T): (k: nat)
    requires x in l
    ensures k < |l| && l[k] == x
    ensures forall j :: 0 <= j < k ==> l[j] != x
  {
    if l[0] == x then 0 else 1 + IndexOf(l[1..], x)
  }

  /** `l.remove(x)`: drops the first occurrence of `x` and keeps the order of
      everything else. Python raises ValueError when `x` is absent; every
      caller in the game tests `x in l` first. */
  function Remove<T(==)>(l: seq<T>, x: T): (r: seq<T>)
    requires x in l
    ensures |r| == |l| - 1
    ensures multiset(r) == multiset(l) - multiset{x}
    ensures forall j :: 0 <= j < IndexOf(l, x) ==> r[j] == l[j]
    ensures forall j :: IndexOf(l, x) <= j < |r| ==> r[j] == l[j + 1]
  {
    var k := IndexOf(l, x);
    assert l == l[..k] + [x] + l[k + 1..];
    l[..k] + l[k + 1..]
  }

  /** The index of the first element for which `test` holds, as an
      `enumerate` loop that stops at its first hit finds it. */
  function FirstMatch<T>(l: seq<T>, test: T -> bool): (r: Option<nat>)
    ensures r.Some? ==> r.value < |l| && test(l[r.value])
    ensures r.Some? ==> forall j :: 0 <= j < r.value ==> !test(l[j])
    ensures r.None? <==> forall j :: 0 <= j < |l| ==> !test(l[j])
  {
    if |l| == 0 then None
    else if test(l[0]) then Some(0)
    else match FirstMatch(l[1..], test)
      case None => None
      case Some(k) => Some(k + 1)
  }
}

=== FILE: scheduler.dfy ===
/** `async_draw`: each pass resumes every coroutine of a snapshot of
    `COROUTINES` once, in order, and pops a coroutine that returned by its
    index in the snapshot from the live list. */
module Scheduler {
  import opened State
  import opened Lists
  import Tasks

  /** `COROUTINES` as identities (`queue`); every coroutine object ever made,
      indexed by identity (`tasks`, which keeps objects that left the list);
      and the shared game state. */
  datatype World = World(queue: seq<TaskId>, tasks: seq<Task>, shared: Shared)

  /** What a pass did: the coroutines it resumed in order, the snapshot
      indices of those that returned, and the coroutines appended meanwhile. */
  datatype PassOut = PassOut(world: World, resumed: seq<TaskId>, finished: seq<nat>, spawned: seq<Task>)

  /** Every listed coroutine exists. */
  predicate Valid(w: World)
  {
    forall j :: 0 <= j < |w.queue| ==> w.queue[j] < |w.tasks|
  }

  /** No coroutine is listed twice. */
  predicate Distinct(q: seq<TaskId>)
  {
    forall a, b :: 0 <= a < b < |q| ==> q[a] != q[b]
  }

  /** The identities `base, base + 1, ..., base + n - 1`. */
  function Ids(base: nat, n: nat): (r: seq<TaskId>)
    ensures |r| == n
    ensures forall k :: 0 <= k < n ==> r[k] == base + k
  {
    seq(n, k requires 0 <= k < n => base + k)
  }

  lemma IdsSplit(base: nat, m: nat, n: nat)
    ensures Ids(base, m) + Ids(base + m, n) == Ids(base, m + n)
  {
    var a := Ids(base, m) + Ids(base + m, n);
    var b := Ids(base, m + n);
    forall k | 0 <= k < |a|
      ensures a[k] == b[k]
    {
      if k >= m {
        assert a[k] == Ids(base + m, n)[k - m];
      }
    }
  }

  /** `COROUTINES.append(t)` for each `t` in order, each a new object. */
  function Append(w: World, ts: seq<Task>): World
  {
    World(w.queue + Ids(|w.tasks|, |ts|), w.tasks + ts, w.shared)
  }

  /** After a resumption: keep the suspended coroutine, or (it returned) mark
      it done and `COROUTINES.pop(index)`, which raises past the end. */
  function Settle(w: World, id: TaskId, index: nat, run: Run): Result<World>
    requires id < |w.tasks|
  {
    match run
    case Yield(t) => Ok(w.(tasks := w.tasks[id := t]))
    case Return =>
      match Pop(w.queue, index)
      case None => Err(PopOutOfRange)
      case Some(q) => Ok(w.(queue := q, tasks := w.tasks[id := Done]))
  }

  /** The pass from snapshot index `i` on, given how a coroutine is resumed. */
  function PassFrom(resume: (Shared, Task) -> Result<Step>, snap: seq<TaskId>, i: nat, w: World): Result<PassOut>
    requires i <= |snap|
    requires forall j :: i <= j < |snap| ==> snap[j] < |w.tasks|
    decreases |snap| - i
  {
    if i == |snap| then Ok(PassOut(w, [], [], []))
    else
      var id := snap[i];
      match resume(w.shared, w.tasks[id])
      case Err(f) => Err(f)
      case Ok(st) =>
        match Settle(Append(w.(shared := st.shared), st.spawned), id, i, st.run)
        case Err(f) => Err(f)
        case Ok(w2) =>
          match PassFrom(resume, snap, i + 1, w2)
          case Err(f) => Err(f)
          case Ok(out) =>
            var here: seq<nat> := if st.run.Return? then [i] else [];
            Ok(PassOut(out.world, [id] + out.resumed, here + out.finished, st.spawned + out.spawned))
  }

  /** What one resumption's bookkeeping (appending what it spawned, then
      settling the resumed coroutine) does to the coroutine table. */
  lemma AfterResumption(w: World, id: TaskId, index: nat, st: Step)
    requires id < |w.tasks|
    requires Settle(Append(w.(shared := st.shared), st.spawned), id, index, st.run).Ok?
    ensures var w2 := Settle(Append(w.(shared := st.shared), st.spawned), id, index, st.run).value;
      && |w2.tasks| == |w.tasks| + |st.spawned|
      && w2.tasks[|w.tasks|..] == st.spawned
      && w2.shared == st.shared
      && (forall t :: 0 <= t < |w.tasks| && t != id ==> w2.tasks[t] == w.tasks[t])
      && w2.tasks[id] == (if st.run.Yield? then st.run.task else Done)
  {
    var w2 := Settle(Append(w.(shared := st.shared), st.spawned), id, index, st.run).value;
    assert w2.tasks == (w.tasks + st.spawned)[id := w2.tasks[id]];
    assert w2.tasks[|w.tasks|..] == st.spawned;
  }

  /** A pass only appends to the coroutine table, and changes no coroutine
      outside the part of the snapshot it still had to run. */
  lemma {:induction false} PassFrame(resume: (Shared, Task) -> Result<Step>, snap: seq<TaskId>, i: nat, w: World)
    requires i <= |snap|
    requires forall j :: i <= j < |snap| ==> snap[j] < |w.tasks|
    decreases |snap| - i
    ensures var r := PassFrom(resume, snap, i, w);
      r.Ok? ==>
        && |r.value.world.tasks| == |w.tasks| + |r.value.spawned|
        && (forall t :: 0 <= t < |w.tasks| && t !in snap[i..] ==> r.value.world.tasks[t] == w.tasks[t])
  {
    if i < |snap| {
      var id := snap[i];
      var res := resume(w.shared, w.tasks[id]);
      if res.Ok? {
        var st := res.value;
        var set' := Settle(Append(w.(shared := st.shared), st.spawned), id, i, st.run);
        if set'.Ok? {
          var w2 := set'.value;
          AfterResumption(w, id, i, st);
          PassFrame(resume, snap, i + 1, w2);
          var rest := PassFrom(resume, snap, i + 1, w2);
          if rest.Ok? {
            var r := PassFrom(resume, snap, i, w).value;
            assert r.world == rest.value.world && r.spawned == st.spawned + rest.value.spawned;
            forall t | 0 <= t < |w.tasks| && t !in snap[i..]
              ensures r.world.tasks[t] == w.tasks[t]
            {
              assert snap[i..] == [id] + snap[i + 1..];
              assert t != id && t !in snap[i + 1..];
            }
          }
        }
      }
    }
  }

  /** A pass resumes exactly the coroutines of its snapshot, each once and
      in list order; coroutines appended during the pass are not resumed
      before the next pass. */
  lemma {:induction false} PassResumesSnapshot(resume: (Shared, Task) -> Result<Step>, snap: seq<TaskId>, i: nat, w: World)
    requires i <= |snap|
    requires forall j :: i <= j < |snap| ==> snap[j] < |w.tasks|
    decreases |snap| - i
    ensures var r := PassFrom(resume, snap, i, w);
      r.Ok? ==> r.value.resumed == snap[i..]
  {
    if i < |snap| {
      var id := snap[i];
      var res := resume(w.shared, w.tasks[id]);
      if res.Ok? {
        var st := res.value;
        var set' := Settle(Append(w.(shared := st.shared), st.spawned), id, i, st.run);
        if set'.Ok? {
          PassResumesSnapshot(resume, snap, i + 1, set'.value);
          assert snap[i..] == [id] + snap[i + 1..];
        }
      }
    }
  }

  /** The coroutines appended during a pass are stored, in order, in the
      state they were appended in: none of them has run yet. */
  lemma {:induction false} PassStoresSpawned(resume: (Shared, Task) -> Result<Step>, snap: seq<TaskId>, i: nat, w: World)
    requires i <= |snap|
    requires forall j :: i <= j < |snap| ==> snap[j] < |w.tasks|
    decreases |snap| - i
    ensures var r := PassFrom(resume, snap, i, w);
      r.Ok? ==>
        && |r.value.world.tasks| == |w.tasks| + |r.value.spawned|
        && r.value.world.tasks[|w.tasks|..] == r.value.spawned
  {
    if i < |snap| {
      var id := snap[i];
      var res := resume(w.shared, w.tasks[id]);
      if res.Ok? {
        var st := res.value;
        var set' := Settle(Append(w.(shared := st.shared), st.spawned), id, i, st.run);
        if set'.Ok? {
          var w2 := set'.value;
          AfterResumption(w, id, i, st);
          PassStoresSpawned(resume, snap, i + 1, w2);
          PassFrame(resume, snap, i + 1, w2);
          var rest := PassFrom(resume, snap, i + 1, w2);
          if rest.Ok? {
            var out := rest.value;
            var r := PassFrom(resume, snap, i, w).value;
            assert r.world == out.world && r.spawned == st.spawned + out.spawned;
            TailJoin(|w.tasks|, w2.tasks, out.world.tasks, st.spawned, out.spawned, snap[i + 1..]);
          }
        }
      }
    }
  }

  /** The coroutines appended by one resumption, which the rest of the pass
      leaves alone, followed by those the rest of the pass appends. */
  lemma TailJoin(n: nat, mid: seq<Task>, last: seq<Task>, first: seq<Task>, later: seq<Task>, rest: seq<TaskId>)
    requires |mid| == n + |first| && mid[n..] == first
    requires |last| == |mid| + |later| && last[|mid|..] == later
    requires forall t :: 0 <= t < |mid| && t !in rest ==> last[t] == mid[t]
    requires forall j :: 0 <= j < |rest| ==> rest[j] < n
    ensures last[n..] == first + later
  {
    var tail := last[n..];
    forall k | 0 <= k < |tail|
      ensures tail[k] == (first + later)[k]
    {
      if k < |first| {
        assert n + k !in rest by {
          forall j | 0 <= j < |rest| ensures rest[j] != n + k { }
        }
        assert mid[n..][k] == mid[n + k];
      } else {
        assert last[|mid|..][k - |first|] == tail[k];
      }
    }
  }

  /** One resumption's appends and pop, followed by the rest of the pass's,
      amount to the whole pass's appends followed by its pops in order. */
  lemma PopsCompose(q: seq<TaskId>, base: nat, n1: nat, n2: nat, q2: seq<TaskId>,
                    here: seq<nat>, i: nat, rest: seq<nat>, last: seq<TaskId>)
    requires here == [] || here == [i]
    requires PopEach(q + Ids(base, n1), here) == Some(q2)
    requires PopEach(q2 + Ids(base + n1, n2), rest) == Some(last)
    ensures PopEach(q + Ids(base, n1 + n2), here + rest) == Some(last)
  {
    IdsSplit(base, n1, n2);
    var live := q + Ids(base, n1) + Ids(base + n1, n2);
    assert q + Ids(base, n1 + n2) == live;
    if here == [] {
      assert q2 == q + Ids(base, n1);
      assert here + rest == rest;
    } else {
      assert Pop(q + Ids(base, n1), i) == Some(q2);
      PopThenAppend(q + Ids(base, n1), Ids(base + n1, n2), i);
      assert (here + rest)[0] == i && (here + rest)[1..] == rest;
    }
  }

  /** The live list a pass leaves behind is the old list with the appended
      coroutines at its end, after `pop(index)` at each snapshot index whose
      coroutine returned, in order. The indices are those of the snapshot,
      not of the shrinking live list. */
  lemma {:induction false} PassPopsBySnapshotIndex(resume: (Shared, Task) -> Result<Step>, snap: seq<TaskId>, i: nat, w: World)
    requires i <= |snap|
    requires forall j :: i <= j < |snap| ==> snap[j] < |w.tasks|
    decreases |snap| - i
    ensures var r := PassFrom(resume, snap, i, w);
      r.Ok? ==>
        PopEach(w.queue + Ids(|w.tasks|, |r.value.spawned|), r.value.finished) == Some(r.value.world.queue)
  {
    if i < |snap| {
      var id := snap[i];
      var res := resume(w.shared, w.tasks[id]);
      if res.Ok? {
        var st := res.value;
        var w1 := Append(w.(shared := st.shared), st.spawned);
        var set' := Settle(w1, id, i, st.run);
        if set'.Ok? {
          var w2 := set'.value;
          PassPopsBySnapshotIndex(resume, snap, i + 1, w2);
          var rest := PassFrom(resume, snap, i + 1, w2);
          if rest.Ok? {
            var out := rest.value;
            var r := PassFrom(resume, snap, i, w).value;
            var here: seq<nat> := if st.run.Return? then [i] else [];
            assert r.world == out.world && r.spawned == st.spawned + out.spawned;
            assert r.finished == here + out.finished;
            assert PopEach(w.queue + Ids(|w.tasks|, |st.spawned|), here) == Some(w2.queue) by {
              if here != [] {
                assert here[0] == i && here[1..] == [];
              }
            }
            PopsCompose(w.queue, |w.tasks|, |st.spawned|, |out.spawned|, w2.queue, here, i, out.finished, out.world.queue);
          }
        }
      }
    } else {
      assert w.queue + Ids(|w.tasks|, 0) == w.queue;
    }
  }

  /** The snapshot indices of the coroutines that returned are recorded in
      increasing order, and each lies in the part of the snapshot the pass
      still had to run. */
  lemma {:induction false} PassFinishedInOrder(resume: (Shared, Task) -> Result<Step>, snap: seq<TaskId>, i: nat, w: World)
    requires i <= |snap|
    requires forall j :: i <= j < |snap| ==> snap[j] < |w.tasks|
    decreases |snap| - i
    ensures var r := PassFrom(resume, snap, i, w);
      r.Ok? ==>
        && (forall k :: 0 <= k < |r.value.finished| ==> i <= r.value.finished[k] < |snap|)
        && (forall a, b :: 0 <= a < b < |r.value.finished| ==> r.value.finished[a] < r.value.finished[b])
  {
    if i < |snap| {
      var id := snap[i];
      var res := resume(w.shared, w.tasks[id]);
      if res.Ok? {
        var st := res.value;
        var set' := Settle(Append(w.(shared := st.shared), st.spawned), id, i, st.run);
        if set'.Ok? {
          PassFinishedInOrder(resume, snap, i + 1, set'.value);
        }
      }
    }
  }

  /** A pass keeps every listed coroutine in the table. */
  lemma {:induction false} PassKeepsValid(resume: (Shared, Task) -> Result<Step>, snap: seq<TaskId>, i: nat, w: World)
    requires i <= |snap|
    requires forall j :: i <= j < |snap| ==> snap[j] < |w.tasks|
    requires Valid(w)
    decreases |snap| - i
    ensures PassFrom(resume, snap, i, w).Ok? ==> Valid(PassFrom(resume, snap, i, w).value.world)
  {
    if i < |snap| {
      var id := snap[i];
      var res := resume(w.shared, w.tasks[id]);
      if res.Ok? {
        var st := res.value;
        var w1 := Append(w.(shared := st.shared), st.spawned);
        var set' := Settle(w1, id, i, st.run);
        if set'.Ok? {
          var w2 := set'.value;
          assert Valid(w1) by {
            forall j | 0 <= j < |w1.queue| ensures w1.queue[j] < |w1.tasks| {
              if j >= |w.queue| {
                assert w1.queue[j] == Ids(|w.tasks|, |st.spawned|)[j - |w.queue|];
              }
            }
          }
          assert Valid(w2);
          PassKeepsValid(resume, snap, i + 1, w2);
        }
      }
    }
  }

  /** Resumptions never reuse an obstacle identity. */
  ghost predicate KeepsFreshIds(resume: (Shared, Task) -> Result<Step>)
  {
    forall s, t :: FreshIds(s) && resume(s, t).Ok? ==> FreshIds(resume(s, t).value.shared)
  }

  /** A pass threads the shared state through its resumptions only, so it
      keeps obstacle identities fresh when every resumption does. */
  lemma {:induction false} PassKeepsFreshIds(resume: (Shared, Task) -> Result<Step>, snap: seq<TaskId>, i: nat, w: World)
    requires i <= |snap|
    requires forall j :: i <= j < |snap| ==> snap[j] < |w.tasks|
    requires KeepsFreshIds(resume) && FreshIds(w.shared)
    decreases |snap| - i
    ensures PassFrom(resume, snap, i, w).Ok? ==> FreshIds(PassFrom(resume, snap, i, w).value.world.shared)
  {
    if i < |snap| {
      var id := snap[i];
      var res := resume(w.shared, w.tasks[id]);
      if res.Ok? {
        var st := res.value;
        var set' := Settle(Append(w.(shared := st.shared), st.spawned), id, i, st.run);
        if set'.Ok? {
          assert set'.value.shared == st.shared;
          PassKeepsFreshIds(resume, snap, i + 1, set'.value);
        }
      }
    }
  }

  /** A resumption that suspends never leaves the coroutine done. */
  ghost predicate NeverSuspendsDone(resume: (Shared, Task) -> Result<Step>)
  {
    forall s, t :: resume(s, t).Ok? && resume(s, t).value.run.Yield? ==> resume(s, t).value.run.task != Done
  }

  /** A coroutine of the snapshot is marked done exactly when its
      resumption in this pass returned. */
  lemma {:induction false} PassMarksReturnsDone(resume: (Shared, Task) -> Result<Step>, snap: seq<TaskId>, i: nat, w: World)
    requires i <= |snap|
    requires forall j :: i <= j < |snap| ==> snap[j] < |w.tasks|
    requires forall a, b :: i <= a < b < |snap| ==> snap[a] != snap[b]
    requires NeverSuspendsDone(resume)
    decreases |snap| - i
    ensures var r := PassFrom(resume, snap, i, w);
      r.Ok? ==> forall j :: i <= j < |snap| ==>
        snap[j] < |r.value.world.tasks| && (j in r.value.finished <==> r.value.world.tasks[snap[j]] == Done)
  {
    if i < |snap| {
      var id := snap[i];
      var res := resume(w.shared, w.tasks[id]);
      if res.Ok? {
        var st := res.value;
        var set' := Settle(Append(w.(shared := st.shared), st.spawned), id, i, st.run);
        if set'.Ok? {
          var w2 := set'.value;
          assert id < |w2.tasks| && (w2.tasks[id] == Done <==> st.run.Return?) by {
            AfterResumption(w, id, i, st);
          }
          assert forall j :: i + 1 <= j < |snap| ==> snap[j] < |w2.tasks| by {
            AfterResumption(w, id, i, st);
          }
          var rest := PassFrom(resume, snap, i + 1, w2);
          if rest.Ok? {
            var out := rest.value;
            assert forall j :: i + 1 <= j < |snap| ==>
                snap[j] < |out.world.tasks| && (j in out.finished <==> out.world.tasks[snap[j]] == Done) by {
              PassMarksReturnsDone(resume, snap, i + 1, w2);
            }
            RestLeavesHead(resume, snap, i, w2, out);
            var here: seq<nat> := if st.run.Return? then [i] else [];
            assert PassFrom(resume, snap, i, w).value.world == out.world;
            assert PassFrom(resume, snap, i, w).value.finished == here + out.finished;
            MarksCombine(snap, i, out.world.tasks, out.finished, st.run.Return?);
          }
        }
      }
    }
  }

  /** The rest of a pass, from `i + 1` on, neither records index `i` nor
      touches the coroutine at `i` when it is not listed again. */
  lemma RestLeavesHead(resume: (Shared, Task) -> Result<Step>, snap: seq<TaskId>, i: nat, w2: World, out: PassOut)
    requires i < |snap|
    requires forall j :: i <= j < |snap| ==> snap[j] < |w2.tasks|
    requires forall j :: i + 1 <= j < |snap| ==> snap[j] != snap[i]
    requires PassFrom(resume, snap, i + 1, w2) == Ok(out)
    ensures i !in out.finished
    ensures snap[i] < |out.world.tasks| && out.world.tasks[snap[i]] == w2.tasks[snap[i]]
  {
    PassFinishedInOrder(resume, snap, i + 1, w2);
    PassFrame(resume, snap, i + 1, w2);
    assert snap[i] !in snap[i + 1..];
  }

  /** The marking at snapshot index `i`, put in front of the marking of the
      rest of the snapshot. */
  lemma MarksCombine(snap: seq<TaskId>, i: nat, tasks: seq<Task>, rest: seq<nat>, returned: bool)
    requires i < |snap|
    requires i !in rest
    requires snap[i] < |tasks| && (tasks[snap[i]] == Done <==> returned)
    requires forall j :: i + 1 <= j < |snap| ==> snap[j] < |tasks| && (j in rest <==> tasks[snap[j]] == Done)
    ensures var finished := (if returned then [i] else []) + rest;
      forall j :: i <= j < |snap| ==> snap[j] < |tasks| && (j in finished <==> tasks[snap[j]] == Done)
  {
    var finished := (if returned then [i] else []) + rest;
    forall j | i <= j < |snap|
      ensures snap[j] < |tasks| && (j in finished <==> tasks[snap[j]] == Done)
    {
      if j > i {
        assert j in finished <==> j in rest;
      }
    }
  }

  /** A coroutine that is already done and still in the snapshot makes the
      pass raise: resuming it again is an error, whatever the pass does
      before reaching it. */
  lemma {:induction false} DoneInSnapshotRaises(resume: (Shared, Task) -> Result<Step>, snap: seq<TaskId>, i: nat, w: World, j: nat)
    requires i <= j < |snap|
    requires forall k :: i <= k < |snap| ==> snap[k] < |w.tasks|
    requires w.tasks[snap[j]] == Done
    requires forall s :: resume(s, Done).Err?
    decreases |snap| - i
    ensures PassFrom(resume, snap, i, w).Err?
  {
    if i < j {
      var id := snap[i];
      var res := resume(w.shared, w.tasks[id]);
      if res.Ok? {
        var st := res.value;
        var set' := Settle(Append(w.(shared := st.shared), st.spawned), id, i, st.run);
        if set'.Ok? {
          var w2 := set'.value;
          AfterResumption(w, id, i, st);
          DoneInSnapshotRaises(resume, snap, i + 1, w2, j);
        }
      }
    }
  }

  /** A coroutine that suspends whatever the shared state is. */
  ghost predicate AlwaysSuspends(resume: (Shared, Task) -> Result<Step>, t: Task)
  {
    forall s :: resume(s, t).Ok? && resume(s, t).value.run.Yield?
  }

  /** When every coroutine of the snapshot, listed once, suspends, the pass
      succeeds, nothing returns, and the live list only grows. */
  lemma {:induction false} AllSuspend(resume: (Shared, Task) -> Result<Step>, snap: seq<TaskId>, i: nat, w: World)
    requires i <= |snap|
    requires forall j :: i <= j < |snap| ==> snap[j] < |w.tasks|
    requires forall a, b :: i <= a < b < |snap| ==> snap[a] != snap[b]
    requires forall j :: i <= j < |snap| ==> AlwaysSuspends(resume, w.tasks[snap[j]])
    decreases |snap| - i
    ensures PassFrom(resume, snap, i, w).Ok?
    ensures PassFrom(resume, snap, i, w).value.finished == []
  {
    if i < |snap| {
      var id := snap[i];
      assert AlwaysSuspends(resume, w.tasks[id]);
      var st := resume(w.shared, w.tasks[id]).value;
      var w2 := Settle(Append(w.(shared := st.shared), st.spawned), id, i, st.run).value;
      AfterResumption(w, id, i, st);
      forall j | i + 1 <= j < |snap|
        ensures snap[j] < |w2.tasks| && w2.tasks[snap[j]] == w.tasks[snap[j]]
      {
        assert snap[j] != id;
      }
      AllSuspend(resume, snap, i + 1, w2);
    }
  }

  /** Resuming coroutines with the game's own coroutine bodies. */
  function Resumer(ctx: Context): (Shared, Task) -> Result<Step>
  {
    (s: Shared, t: Task) => Tasks.Resume(ctx, s, t)
  }

  lemma GameNeverSuspendsDone(ctx: Context)
    ensures NeverSuspendsDone(Resumer(ctx))
    ensures forall s :: Resumer(ctx)(s, Done).Err?
  {
  }

  /** No coroutine of the game reuses an obstacle identity. */
  lemma GameKeepsFreshIds(ctx: Context)
    ensures KeepsFreshIds(Resumer(ctx))
  {
    forall s, t | FreshIds(s) && Resumer(ctx)(s, t).Ok?
      ensures FreshIds(Resumer(ctx)(s, t).value.shared)
    {
      Tasks.ResumeKeepsFreshIds(ctx, s, t);
    }
  }

  /** One tick: `for index, coroutine in enumerate(COROUTINES.copy())`. */
  function Pass(ctx: Context, w: World): Result<PassOut>
    requires Valid(w)
  {
    PassFrom(Resumer(ctx), w.queue, 0, w)
  }

  /** A pass over a well-formed world resumes the live list once, in order,
      keeps the world well formed, records the coroutines it appended, and
      leaves as live list the old list plus the appended coroutines, popped
      in order at the snapshot indices of the coroutines that returned. */
  lemma PassOverList(ctx: Context, w: World)
    requires Valid(w)
    ensures var r := Pass(ctx, w);
      r.Ok? ==>
        && r.value.resumed == w.queue
        && Valid(r.value.world)
        && |r.value.world.tasks| == |w.tasks| + |r.value.spawned|
        && r.value.world.tasks[|w.tasks|..] == r.value.spawned
        && PopEach(w.queue + Ids(|w.tasks|, |r.value.spawned|), r.value.finished) == Some(r.value.world.queue)
        && (forall k :: 0 <= k < |r.value.finished| ==> r.value.finished[k] < |w.queue|)
        && (forall a, b :: 0 <= a < b < |r.value.finished| ==> r.value.finished[a] < r.value.finished[b])
  {
    PassResumesSnapshot(Resumer(ctx), w.queue, 0, w);
    PassStoresSpawned(Resumer(ctx), w.queue, 0, w);
    PassPopsBySnapshotIndex(Resumer(ctx), w.queue, 0, w);
    PassFinishedInOrder(Resumer(ctx), w.queue, 0, w);
    PassKeepsValid(Resumer(ctx), w.queue, 0, w);
    assert w.queue[0..] == w.queue;
  }

  /** A tick never hands out an obstacle identity already in use: every
      identity registered or reported as collided stays below the next one. */
  lemma TickKeepsFreshIds(ctx: Context, w: World)
    requires Valid(w) && FreshIds(w.shared)
    ensures Pass(ctx, w).Ok? ==> FreshIds(Pass(ctx, w).value.world.shared)
  {
    GameKeepsFreshIds(ctx);
    PassKeepsFreshIds(Resumer(ctx), w.queue, 0, w);
  }

  /** With no coroutine listed twice, the coroutines a pass marks done are
      exactly the listed ones that returned, and the coroutines that were
      not listed keep their state. */
  lemma PassMarksDone(ctx: Context, w: World)
    requires Valid(w) && Distinct(w.queue)
    ensures var r := Pass(ctx, w);
      r.Ok? ==>
        && (forall j :: 0 <= j < |w.queue| ==>
              w.queue[j] < |r.value.world.tasks| && (j in r.value.finished <==> r.value.world.tasks[w.queue[j]] == Done))
        && |r.value.world.tasks| >= |w.tasks|
        && (forall t :: 0 <= t < |w.tasks| && t !in w.queue ==> r.value.world.tasks[t] == w.tasks[t])
  {
    GameNeverSuspendsDone(ctx);
    PassMarksReturnsDone(Resumer(ctx), w.queue, 0, w);
    PassFrame(Resumer(ctx), w.queue, 0, w);
    assert w.queue[0..] == w.queue;
  }

  /** Popping never lists a coroutine twice. */
  lemma {:induction false} PopEachKeepsDistinct(l: seq<TaskId>, indices: seq<nat>)
    requires Distinct(l)
    ensures PopEach(l, indices).Some? ==> Distinct(PopEach(l, indices).value)
    decreases |indices|
  {
    if |indices| > 0 && Pop(l, indices[0]).Some? {
      var i := indices[0];
      var q := Pop(l, i).value;
      forall a, b | 0 <= a < b < |q|
        ensures q[a] != q[b]
      {
        var a' := if a < i then a else a + 1;
        var b' := if b < i then b else b + 1;
        assert q[a] == l[a'] && q[b] == l[b'] && a' < b';
      }
      PopEachKeepsDistinct(q, indices[1..]);
    }
  }

  /** A pass keeps every coroutine listed at most once: the appended ones are
      new, and pops only remove. */
  lemma PassKeepsDistinct(ctx: Context, w: World)
    requires Valid(w) && Distinct(w.queue)
    ensures Pass(ctx, w).Ok? ==> Distinct(Pass(ctx, w).value.world.queue)
  {
    PassOverList(ctx, w);
    if Pass(ctx, w).Ok? {
      var r := Pass(ctx, w).value;
      var live := w.queue + Ids(|w.tasks|, |r.spawned|);
      forall a, b | 0 <= a < b < |live|
        ensures live[a] != live[b]
      {
        if b >= |w.queue| {
          assert live[b] == |w.tasks| + (b - |w.queue|);
          if a < |w.queue| {
            assert live[a] == w.queue[a] < |w.tasks|;
          } else {
            assert live[a] == |w.tasks| + (a - |w.queue|);
          }
        }
      }
      PopEachKeepsDistinct(live, r.finished);
    }
  }

  /** A pass in which nothing returned only appends. */
  lemma NoReturnOnlyAppends(ctx: Context, w: World)
    requires Valid(w)
    requires Pass(ctx, w).Ok? && Pass(ctx, w).value.finished == []
    ensures var r := Pass(ctx, w).value;
      r.world.queue == w.queue + Ids(|w.tasks|, |r.spawned|)
  {
    PassOverList(ctx, w);
  }

  /** A pass in which one coroutine returned drops exactly that coroutine
      from the live list and marks it done. */
  lemma OneReturnDropsIt(ctx: Context, w: World)
    requires Valid(w) && Distinct(w.queue)
    requires Pass(ctx, w).Ok? && |Pass(ctx, w).value.finished| == 1
    ensures var r := Pass(ctx, w).value;
      var k := r.finished[0];
      && k < |w.queue| && w.queue[k] < |r.world.tasks|
      && r.world.queue == w.queue[..k] + w.queue[k + 1..] + Ids(|w.tasks|, |r.spawned|)
      && r.world.tasks[w.queue[k]] == Done
  {
    PassOverList(ctx, w);
    PassMarksDone(ctx, w);
    var r := Pass(ctx, w).value;
    var k := r.finished[0];
    assert r.finished == [k];
    PopThenAppend(w.queue, Ids(|w.tasks|, |r.spawned|), k);
    assert PopEach(w.queue + Ids(|w.tasks|, |r.spawned|), [k]) == Some(w.queue[..k] + w.queue[k + 1..] + Ids(|w.tasks|, |r.spawned|));
  }

  /** Two returns in one pass: the second pop uses a snapshot index into a
      list that has already shrunk by one, so it drops the coroutine after
      the one that returned. The returned coroutine stays listed, although
      it is done. A pass with two returns that succeeds therefore has a
      coroutine after the second one (`b + 1 < |live|`). */
  lemma SecondReturnPopsNeighbour(ctx: Context, w: World)
    requires Valid(w) && Distinct(w.queue)
    requires Pass(ctx, w).Ok? && |Pass(ctx, w).value.finished| == 2
    ensures var r := Pass(ctx, w).value;
      var a := r.finished[0];
      var b := r.finished[1];
      var live := w.queue + Ids(|w.tasks|, |r.spawned|);
      && a < b < |w.queue|
      && b + 1 < |live|
      && r.world.queue == live[..a] + live[a + 1..b + 1] + live[b + 2..]
      && r.world.queue[b - 1] == w.queue[b]
      && w.queue[b] < |r.world.tasks| && r.world.tasks[w.queue[b]] == Done
  {
    var r := Pass(ctx, w).value;
    var a := r.finished[0];
    var b := r.finished[1];
    var live := w.queue + Ids(|w.tasks|, |r.spawned|);
    assert PopEach(live, [a, b]) == Some(r.world.queue) && a < b < |w.queue| by {
      PassOverList(ctx, w);
      assert r.finished == [a, b];
    }
    assert w.queue[b] < |r.world.tasks| && r.world.tasks[w.queue[b]] == Done by {
      PassMarksDone(ctx, w);
      assert b in r.finished;
    }
    PopTwice(live, a, b, r.world.queue);
  }

  /** A done coroutine still in the live list makes the next pass raise:
      resuming a finished coroutine is an error. */
  lemma StaleDoneRaises(ctx: Context, w: World, j: nat)
    requires Valid(w)
    requires j < |w.queue| && w.tasks[w.queue[j]] == Done
    ensures Pass(ctx, w).Err?
  {
    GameNeverSuspendsDone(ctx);
    DoneInSnapshotRaises(Resumer(ctx), w.queue, 0, w, j);
  }

  /** So two returns in one pass break the game on the following pass. */
  lemma SecondReturnBreaksNextPass(ctx: Context, ctx': Context, w: World)
    requires Valid(w) && Distinct(w.queue)
    requires Pass(ctx, w).Ok? && |Pass(ctx, w).value.finished| == 2
    ensures Valid(Pass(ctx, w).value.world)
    ensures Pass(ctx', Pass(ctx, w).value.world).Err?
  {
    PassOverList(ctx, w);
    SecondReturnPopsNeighbour(ctx, w);
    var r := Pass(ctx, w).value;
    StaleDoneRaises(ctx', r.world, r.finished[1] - 1);
  }

  /** Appending nothing leaves the world as it was. */
  lemma AppendNothing(w: World)
    ensures Append(w, []) == w
  {
    assert w.queue + Ids(|w.tasks|, 0) == w.queue;
    assert w.tasks + [] == w.tasks;
  }

  /** A projectile that has already flown past the top edge. */
  function Spent(): Task
  {
    ShotTask(Shot(Flying(24, 80), 0.0, 5.0, -0.3, 0.0))
  }

  /** Two spent projectiles listed before a star: both return, the second
      pop removes the star instead of the second projectile, and the star,
      never done, is no longer resumed. */
  lemma TwoReturnsDropAStar(ctx: Context, s: Shared)
    ensures var star := StarTask(Twinkling(Dim, 3));
      var r := Pass(ctx, World([0, 1, 2], [Spent(), Spent(), star], s));
      && r.Ok?
      && r.value.finished == [0, 1]
      && r.value.world.queue == [1]
      && r.value.world.tasks[1] == Done
      && r.value.world.tasks[2] != Done
  {
    var star := StarTask(Twinkling(Dim, 3));
    var w := World([0, 1, 2], [Spent(), Spent(), star], s);
    var step := Step(s, [], Return, []);
    assert Resumer(ctx)(s, Spent()) == Ok(step);
    var w1 := World([1, 2], [Done, Spent(), star], s);
    AppendNothing(w);
    AppendNothing(w1);
    assert w.queue[..0] + w.queue[1..] == w1.queue;
    assert Pop(w.queue, 0) == Some(w1.queue);
    assert w.tasks[0 := Done] == w1.tasks;
    assert Settle(Append(w.(shared := s), []), 0, 0, Return) == Ok(w1);
    var w2 := World([1], [Done, Done, star], s);
    AppendNothing(w2);
    assert w1.queue[..1] + w1.queue[2..] == w2.queue;
    assert Pop(w1.queue, 1) == Some(w2.queue);
    assert w1.tasks[1 := Done] == w2.tasks;
    assert Settle(Append(w1.(shared := s), []), 1, 1, Return) == Ok(w2);
    var next := StarTask(Twinkling(Dim, 2));
    assert Resumer(ctx)(s, star) == Ok(Step(s, [], Yield(next), []));
    var w3 := World([1], [Done, Done, next], s);
    assert w2.tasks[2 := next] == w3.tasks;
    assert Settle(Append(w2.(shared := s), []), 2, 2, Yield(next)) == Ok(w3);
    assert PassFrom(Resumer(ctx), [0, 1, 2], 3, w3) == Ok(PassOut(w3, [], [], []));
  }

  /** Three spent projectiles: the third return pops index 2 of a list that
      is down to one coroutine, and the pass raises IndexError. */
  lemma ThreeReturnsRaise(ctx: Context, s: Shared)
    ensures Pass(ctx, World([0, 1, 2], [Spent(), Spent(), Spent()], s)) == Err(PopOutOfRange)
  {
    var w := World([0, 1, 2], [Spent(), Spent(), Spent()], s);
    var step := Step(s, [], Return, []);
    assert Resumer(ctx)(s, Spent()) == Ok(step);
    var w1 := World([1, 2], [Done, Spent(), Spent()], s);
    AppendNothing(w);
    AppendNothing(w1);
    assert w.queue[..0] + w.queue[1..] == w1.queue;
    assert Pop(w.queue, 0) == Some(w1.queue);
    assert w.tasks[0 := Done] == w1.tasks;
    assert Settle(Append(w.(shared := s), []), 0, 0, Return) == Ok(w1);
    var w2 := World([1], [Done, Done, Spent()], s);
    AppendNothing(w2);
    assert w1.queue[..1] + w1.queue[2..] == w2.queue;
    assert Pop(w1.queue, 1) == Some(w2.queue);
    assert w1.tasks[1 := Done] == w2.tasks;
    assert Settle(Append(w1.(shared := s), []), 1, 1, Return) == Ok(w2);
    assert Settle(Append(w2.(shared := s), []), 2, 2, Return) == Err(PopOutOfRange);
  }
}

=== FILE: ship.dfy ===
/** `run_spaceship` (the pilot) and `animate_spaceship` (the frame flipper). */
module Spaceship {
  import opened State
  import opened Lists
  import Geometry

  /** The default direction of `fire`: straight up, 0.3 rows per tick. */
  const ShotRowsSpeed: real := -0.3
  const ShotColumnsSpeed: real := 0.0

  /** The gun sits two columns right of the ship's top-left corner. */
  const GunOffset: real := 2.0

  /** The largest top-left coordinate at which a frame of extent `frame`
      still fits inside a canvas of extent `canvas` with its border. */
  function FarEdge(canvas: int, frame: int): real
  {
    (canvas - frame - 1) as real
  }

  /** A freshly called `fire(canvas, row, column + 2)`. */
  function ShotFrom(row: real, column: real): Task
  {
    ShotTask(Shot(Loaded, row, column + GunOffset, ShotRowsSpeed, ShotColumnsSpeed))
  }

  /** Whether some obstacle reports a collision with the ship's position. */
  function Crashed(ctx: Context, obstacles: seq<Obstacle>, ship: Ship): bool
  {
    FirstMatch(obstacles, (o: Obstacle) => ctx.hasCollision(o, ship.row, ship.column)).Some?
  }

  /** The `while True` body of `run_spaceship` from the top to its
      suspension: read the controls, update speed, move and clamp, capture
      and draw the current frame, fire if asked. */
  function Maneuver(ctx: Context, s: Shared, ship: Ship): Step
  {
    var speed := ctx.updateSpeed(ship.rowSpeed, ship.columnSpeed,
                                 ctx.controls.rowsDirection, ctx.controls.columnsDirection);
    var row := Geometry.KeepInside(ship.row + speed.0, FarEdge(ship.canvasRows, ship.frameRows));
    var column := Geometry.KeepInside(ship.column + speed.1, FarEdge(ship.canvasColumns, ship.frameColumns));
    var moved := ship.(row := row, column := column, rowSpeed := speed.0, columnSpeed := speed.1);
    var shots := if ctx.controls.spacePressed then [ShotFrom(row, column)] else [];
    Step(s, shots, Yield(PilotTask(Piloting(moved, s.shipFrame))), [Paint(row, column, s.shipFrame, false)])
  }

  /** One resumption of `run_spaceship`. The first one reads the frame size
      and the canvas extent, which the pilot keeps from then on. */
  function Steer(ctx: Context, s: Shared, p: Pilot): Result<Step>
  {
    match p
    case PilotStart(centerRow, centerColumn, frames) =>
      if |frames| == 0 then Err(MissingFrame)
      else
        var size := ctx.frameSize(frames[0]);
        var ship := Ship(centerRow, centerColumn, 0.0, 0.0, size.0, size.1, ctx.rows, ctx.columns, centerRow, centerColumn);
        Ok(Maneuver(ctx, s, ship))
    case Piloting(ship, shown) =>
      var erase := Paint(ship.row, ship.column, shown, true);
      if Crashed(ctx, s.obstacles, ship) then
        Ok(Step(s, [GameOverTask(ship.centerRow, ship.centerColumn)], Return, [erase]))
      else
        var next := Maneuver(ctx, s, ship);
        Ok(next.(paints := [erase] + next.paints))
  }

  /** Every resumption of a started pilot succeeds, leaves the shared state
      alone, and, if it suspends, leaves the ship inside the canvas: each
      coordinate is at least 1, and at most the far edge whenever that edge
      is at least 1. */
  lemma PilotStaysInside(ctx: Context, s: Shared, p: Pilot)
    requires p.Piloting? || |p.frames| > 0
    ensures Steer(ctx, s, p).Ok?
    ensures Steer(ctx, s, p).value.shared == s
    ensures var st := Steer(ctx, s, p).value;
      st.run.Yield? ==>
        && st.run.task.PilotTask? && st.run.task.pilot.Piloting?
        && var ship := st.run.task.pilot.ship;
        && ship.row >= 1.0 && ship.column >= 1.0
        && (FarEdge(ship.canvasRows, ship.frameRows) >= 1.0 ==> ship.row <= FarEdge(ship.canvasRows, ship.frameRows))
        && (FarEdge(ship.canvasColumns, ship.frameColumns) >= 1.0 ==> ship.column <= FarEdge(ship.canvasColumns, ship.frameColumns))
  {
  }

  /** A move that stays inside the canvas is not altered by the clamp: the
      ship lands exactly where its speed takes it. */
  lemma UnclampedInRange(ctx: Context, s: Shared, ship: Ship, shown: string)
    requires !Crashed(ctx, s.obstacles, ship)
    ensures var speed := ctx.updateSpeed(ship.rowSpeed, ship.columnSpeed,
                                         ctx.controls.rowsDirection, ctx.controls.columnsDirection);
      var moved := Steer(ctx, s, Piloting(ship, shown)).value.run.task.pilot.ship;
      && moved.rowSpeed == speed.0 && moved.columnSpeed == speed.1
      && (1.0 <= ship.row + speed.0 <= FarEdge(ship.canvasRows, ship.frameRows) ==> moved.row == ship.row + speed.0)
      && (1.0 <= ship.column + speed.1 <= FarEdge(ship.canvasColumns, ship.frameColumns) ==> moved.column == ship.column + speed.1)
  {
  }

  /** The canvas extent is read once, on the first resumption: a started
      pilot keeps it whatever the context reports later, and a pilot that
      is already flying does not look at the context's extent at all. */
  lemma ReadsCanvasOnce(ctx: Context, s: Shared, p: Pilot, rows: int, columns: int)
    requires p.Piloting? || |p.frames| > 0
    ensures var st := Steer(ctx, s, p).value;
      st.run.Yield? ==>
        var ship := st.run.task.pilot.ship;
        && (p.PilotStart? ==> ship.canvasRows == ctx.rows && ship.canvasColumns == ctx.columns)
        && (p.Piloting? ==> ship.canvasRows == p.ship.canvasRows && ship.canvasColumns == p.ship.canvasColumns)
    ensures p.Piloting? ==> Steer(ctx, s, p) == Steer(ctx.(rows := rows, columns := columns), s, p)
  {
  }

  /** The frame erased on resumption is the one captured and drawn before the
      suspension, whatever `SPACESHIP_FRAME` has become in between. */
  lemma ErasesTheFrameItDrew(ctx: Context, ctx': Context, s: Shared, s': Shared, p: Pilot)
    requires p.Piloting? || |p.frames| > 0
    requires Steer(ctx, s, p).Ok? && Steer(ctx, s, p).value.run.Yield?
    ensures var st := Steer(ctx, s, p).value;
      var next := st.run.task.pilot;
      var after := Steer(ctx', s', next);
      && next.Piloting? && next.shown == s.shipFrame
      && st.paints[|st.paints| - 1] == Paint(next.ship.row, next.ship.column, s.shipFrame, false)
      && after.Ok? && |after.value.paints| > 0
      && after.value.paints[0] == Paint(next.ship.row, next.ship.column, s.shipFrame, true)
  {
  }

  /** A collision ends the pilot: it appends exactly one game-over banner,
      centred where the ship started, and returns; without one it appends
      no banner and suspends again. */
  lemma CrashEndsPilot(ctx: Context, s: Shared, ship: Ship, shown: string)
    ensures var st := Steer(ctx, s, Piloting(ship, shown));
      && st.Ok?
      && (st.value.run.Return? <==> Crashed(ctx, s.obstacles, ship))
      && (Crashed(ctx, s.obstacles, ship) ==>
            st.value.spawned == [GameOverTask(ship.centerRow, ship.centerColumn)])
      && (!Crashed(ctx, s.obstacles, ship) ==>
            forall k :: 0 <= k < |st.value.spawned| ==> !st.value.spawned[k].GameOverTask?)
  {
  }

  /** A collision is a hit of some obstacle in the registry. */
  lemma CrashedMeansSomeHit(ctx: Context, obstacles: seq<Obstacle>, ship: Ship)
    ensures Crashed(ctx, obstacles, ship) <==>
      exists j :: 0 <= j < |obstacles| && ctx.hasCollision(obstacles[j], ship.row, ship.column)
  {
    var test := (o: Obstacle) => ctx.hasCollision(o, ship.row, ship.column);
    if !Crashed(ctx, obstacles, ship) {
      forall j | 0 <= j < |obstacles|
        ensures !ctx.hasCollision(obstacles[j], ship.row, ship.column)
      {
        assert !test(obstacles[j]);
      }
    }
  }

  /** A pilot that keeps flying appends a projectile exactly when the fire
      key is pressed, leaving from two columns right of the ship's new
      position and flying straight up. */
  lemma FiresOnSpace(ctx: Context, s: Shared, p: Pilot)
    requires p.Piloting? || |p.frames| > 0
    requires Steer(ctx, s, p).value.run.Yield?
    ensures var st := Steer(ctx, s, p).value;
      var ship := st.run.task.pilot.ship;
      && (ctx.controls.spacePressed ==> st.spawned == [ShotTask(Shot(Loaded, ship.row, ship.column + 2.0, -0.3, 0.0))])
      && (!ctx.controls.spacePressed ==> st.spawned == [])
  {
  }

  /** One resumption of `animate_spaceship`: the frame it leaves in
      `SPACESHIP_FRAME` and its new state. Over an empty tuple the `for`
      loop never suspends and the `while True` spins forever. */
  function Animate(s: Shared, a: Animator): Result<(Shared, Animator)>
  {
    match a
    case AnimatorStart(frames) => Cycle(s, frames)
    case Animating(frames, current, rest) =>
      var s' := s.(shipFrame := current);
      if |rest| > 0 then Ok((s'.(shipFrame := rest[0]), Animating(frames, rest[0], rest[1..])))
      else Cycle(s', frames)
  }

  /** A fresh pass of `for frame in frames`, up to its first suspension. */
  function Cycle(s: Shared, frames: seq<string>): Result<(Shared, Animator)>
  {
    if |frames| == 0 then Err(EndlessAnimation)
    else Ok((s.(shipFrame := frames[0]), Animating(frames, frames[0], frames[1..])))
  }

  /** The animator shows the frames in turn, wrapping around: after showing
      frame `i` the next resumption shows frame `i + 1`, or frame 0 after the
      last one, and it changes nothing but `SPACESHIP_FRAME`. */
  lemma AnimatorCycles(s: Shared, frames: seq<string>, i: nat)
    requires i < |frames|
    ensures i + 1 < |frames| ==>
      Animate(s, Animating(frames, frames[i], frames[i + 1..]))
        == Ok((s.(shipFrame := frames[i + 1]), Animating(frames, frames[i + 1], frames[i + 2..])))
    ensures i + 1 == |frames| ==>
      Animate(s, Animating(frames, frames[i], frames[i + 1..]))
        == Ok((s.(shipFrame := frames[0]), Animating(frames, frames[0], frames[1..])))
  {
    var rest := frames[i + 1..];
    if i + 1 < |frames| {
      assert rest[0] == frames[i + 1];
      assert rest[1..] == frames[i + 2..];
    } else {
      assert |rest| == 0;
    }
  }

  /** The first resumption shows the first frame. */
  lemma AnimatorStartsAtFirst(s: Shared, frames: seq<string>)
    ensures Animate(s, AnimatorStart(frames)).Ok? <==> |frames| > 0
    ensures |frames| > 0 ==>
      Animate(s, AnimatorStart(frames)) == Ok((s.(shipFrame := frames[0]), Animating(frames, frames[0], frames[1..])))
  {
  }
}

=== FILE: shots.dfy ===
/** `fire`: a muzzle flash, then a projectile that moves by a fixed velocity
    each tick while strictly inside the canvas, and that removes the first
    obstacle it hits. */
module Shots {
  import opened State
  import opened Lists
  import Clock

  /** The loop guard of `fire` on a canvas of `rows` by `columns` cells:
      strictly inside the border on both axes. */
  predicate InCanvas(rows: int, columns: int, row: real, column: real)
  {
    0.0 < row < (rows - 1) as real && 0.0 < column < (columns - 1) as real
  }

  /** The index of the first obstacle that reports a collision with the
      projectile's position. */
  function FirstHit(ctx: Context, obstacles: seq<Obstacle>, row: real, column: real): Option<nat>
  {
    FirstMatch(obstacles, (o: Obstacle) => ctx.hasCollision(o, row, column))
  }

  /** Enter `explode` at the impact point; it suspends
      `ctx.explosionLength(row, column)` times and then `fire` returns. */
  function Explode(s: Shared, shot: Shot, pending: nat): Step
  {
    match Clock.Resume(pending)
    case Suspend(left) => Step(s, [], Yield(ShotTask(shot.(phase := Exploding(left)))), [])
    case Wake => Step(s, [], Return, [])
  }

  /** The `while` loop of `fire` from its guard to its next suspension, on
      the canvas extent `fire` read after the flash. */
  function Flight(ctx: Context, rows: int, columns: int, s: Shared, shot: Shot): Step
  {
    if !InCanvas(rows, columns, shot.row, shot.column) then Step(s, [], Return, [])
    else match FirstHit(ctx, s.obstacles, shot.row, shot.column)
      case Some(i) =>
        var s' := s.(obstacles := s.obstacles[..i] + s.obstacles[i + 1..],
                     collided := s.collided + [s.obstacles[i].id]);
        Explode(s', shot, ctx.explosionLength(shot.row, shot.column))
      case None =>
        Step(s, [], Yield(ShotTask(shot.(phase := Flying(rows, columns)))), [])
  }

  /** One step of the velocity. */
  function Advance(shot: Shot): Shot
  {
    shot.(row := shot.row + shot.rowsSpeed, column := shot.column + shot.columnsSpeed)
  }

  /** One resumption of `fire`. The third one moves the projectile once,
      reads the canvas extent, and enters the loop. */
  function Fire(ctx: Context, s: Shared, shot: Shot): Step
  {
    match shot.phase
    case Loaded => Step(s, [], Yield(ShotTask(shot.(phase := Flash))), [])
    case Flash => Step(s, [], Yield(ShotTask(shot.(phase := Glow))), [])
    case Glow => Flight(ctx, ctx.rows, ctx.columns, s, Advance(shot))
    case Flying(rows, columns) => Flight(ctx, rows, columns, s, Advance(shot))
    case Exploding(pending) => Explode(s, shot, pending)
  }

  /** The muzzle flash takes two resumptions ('*' then 'O') and moves
      nothing; the third resumption is the first flight step, on the canvas
      extent the context reports at that moment. */
  lemma MuzzleFlash(ctx: Context, s: Shared, row: real, column: real, rowsSpeed: real, columnsSpeed: real)
    ensures var first := Fire(ctx, s, Shot(Loaded, row, column, rowsSpeed, columnsSpeed));
      var second := Fire(ctx, s, first.run.task.shot);
      && first == Step(s, [], Yield(ShotTask(Shot(Flash, row, column, rowsSpeed, columnsSpeed))), [])
      && second == Step(s, [], Yield(ShotTask(Shot(Glow, row, column, rowsSpeed, columnsSpeed))), [])
      && Fire(ctx, s, second.run.task.shot)
           == Fire(ctx, s, Shot(Flying(ctx.rows, ctx.columns), row, column, rowsSpeed, columnsSpeed))
  {
  }

  /** `getmaxyx` is called once, after the flash: every other resumption
      of `fire` is the same whatever extent the context reports. */
  lemma ReadsCanvasOnce(ctx: Context, s: Shared, shot: Shot, rows: int, columns: int)
    requires !shot.phase.Glow?
    ensures Fire(ctx, s, shot) == Fire(ctx.(rows := rows, columns := columns), s, shot)
  {
  }

  /** A flight step adds exactly the velocity to the stored position; the
      projectile goes on only while the new position is strictly inside the
      canvas and hits nothing there, and it never spawns a task. */
  lemma FlightStep(ctx: Context, s: Shared, shot: Shot)
    requires shot.phase.Flying?
    ensures var st := Fire(ctx, s, shot);
      var rows := shot.phase.rows;
      var columns := shot.phase.columns;
      var row := shot.row + shot.rowsSpeed;
      var column := shot.column + shot.columnsSpeed;
      && st.spawned == []
      && (!InCanvas(rows, columns, row, column) ==> st.run.Return? && st.shared == s)
      && (InCanvas(rows, columns, row, column) && FirstHit(ctx, s.obstacles, row, column).None? ==>
            st.shared == s && st.run == Yield(ShotTask(shot.(row := row, column := column))))
      && (st.run.Yield? && st.run.task.shot.phase.Flying? ==> InCanvas(rows, columns, row, column))
  {
  }

  /** On a hit the projectile removes exactly the first colliding obstacle
      from the registry, keeping the others in order, appends its identity to
      the collision list, and never flies again: it either returns or
      explodes. */
  lemma HitRemovesFirstObstacle(ctx: Context, s: Shared, shot: Shot)
    requires shot.phase.Flying?
    requires InCanvas(shot.phase.rows, shot.phase.columns, shot.row + shot.rowsSpeed, shot.column + shot.columnsSpeed)
    requires FirstHit(ctx, s.obstacles, shot.row + shot.rowsSpeed, shot.column + shot.columnsSpeed).Some?
    ensures var row := shot.row + shot.rowsSpeed;
      var column := shot.column + shot.columnsSpeed;
      var i := FirstHit(ctx, s.obstacles, row, column).value;
      var st := Fire(ctx, s, shot);
      && i < |s.obstacles|
      && ctx.hasCollision(s.obstacles[i], row, column)
      && (forall j :: 0 <= j < i ==> !ctx.hasCollision(s.obstacles[j], row, column))
      && Pop(s.obstacles, i) == Some(st.shared.obstacles)
      && st.shared.collided == s.collided + [s.obstacles[i].id]
      && st.shared.shipFrame == s.shipFrame
      && st.shared.nextObstacle == s.nextObstacle
      && st.spawned == []
      && (st.run.Yield? ==> st.run.task.shot.phase.Exploding?)
  {
    var row := shot.row + shot.rowsSpeed;
    var column := shot.column + shot.columnsSpeed;
    var i := FirstHit(ctx, s.obstacles, row, column).value;
    var test := (o: Obstacle) => ctx.hasCollision(o, row, column);
    var s' := s.(obstacles := s.obstacles[..i] + s.obstacles[i + 1..],
                 collided := s.collided + [s.obstacles[i].id]);
    assert Fire(ctx, s, shot) == Explode(s', Advance(shot), ctx.explosionLength(row, column));
    assert test(s.obstacles[i]);
    forall j | 0 <= j < i
      ensures !ctx.hasCollision(s.obstacles[j], row, column)
    {
      assert !test(s.obstacles[j]);
    }
  }

  /** A hit moves an identity from the registry to the collision list and
      hands out none, so every identity in use stays below `nextObstacle`. */
  lemma FireKeepsFreshIds(ctx: Context, s: Shared, shot: Shot)
    requires FreshIds(s)
    ensures FreshIds(Fire(ctx, s, shot).shared)
  {
    match shot.phase
    case Glow => FlightKeepsFreshIds(ctx, ctx.rows, ctx.columns, s, Advance(shot));
    case Flying(rows, columns) => FlightKeepsFreshIds(ctx, rows, columns, s, Advance(shot));
    case _ =>
  }

  lemma FlightKeepsFreshIds(ctx: Context, rows: int, columns: int, s: Shared, shot: Shot)
    requires FreshIds(s)
    ensures FreshIds(Flight(ctx, rows, columns, s, shot).shared)
  {
    var hit := FirstHit(ctx, s.obstacles, shot.row, shot.column);
    if InCanvas(rows, columns, shot.row, shot.column) && hit.Some? {
      var i := hit.value;
      var s' := Flight(ctx, rows, columns, s, shot).shared;
      assert s'.obstacles == s.obstacles[..i] + s.obstacles[i + 1..];
      forall j | 0 <= j < |s'.obstacles|
        ensures s'.obstacles[j].id < s'.nextObstacle
      {
        if j >= i {
          assert s'.obstacles[j] == s.obstacles[j + 1];
        }
      }
    }
  }

  /** An explosion that still has suspensions to make keeps the projectile
      suspended without touching the world; the resumption after the last
      one ends `fire`. */
  lemma ExplosionRunsOut(ctx: Context, s: Shared, shot: Shot, pending: nat)
    requires shot.phase == Exploding(pending)
    ensures var st := Fire(ctx, s, shot);
      && st.shared == s && st.spawned == []
      && (pending == 0 <==> st.run.Return?)
      && (pending > 0 ==> st.run == Yield(ShotTask(shot.(phase := Exploding(pending - 1)))))
  {
  }
}

=== FILE: stars.dfy ===
/** `blink`: a star waits `delay` ticks, then cycles forever through dim
    (20 ticks), plain (3), bold (5) and plain (3). */
module Stars {
  import opened State
  import Clock

  /** The ticks each attribute stays on screen: the argument of the `sleep`
      that follows its `addstr`. */
  function Hold(phase: BlinkPhase): int
  {
    match phase
    case Delay => 0
    case Dim => 20
    case Plain => 3
    case Bold => 5
    case Replain => 3
  }

  /** The attribute drawn after the sleep that follows `phase`. */
  function After(phase: BlinkPhase): BlinkPhase
  {
    match phase
    case Delay => Dim
    case Dim => Plain
    case Plain => Bold
    case Bold => Replain
    case Replain => Dim
  }

  /** Draw `phase` and enter its sleep; every hold is positive, so the
      sleep's first resumption suspends at once. */
  function Show(phase: BlinkPhase): (s: Star)
    requires phase != Delay
    ensures s.Twinkling? && s.phase == phase
  {
    Twinkling(phase, Clock.Start(Hold(phase)) - 1)
  }

  /** One resumption of `blink`. */
  function Resume(star: Star): (s: Star)
    ensures s.Twinkling?
  {
    match star
    case StarStart(delay) =>
      (match Clock.Resume(Clock.Start(delay))
       case Suspend(left) => Twinkling(Delay, left)
       case Wake => Show(Dim))
    case Twinkling(phase, pending) =>
      match Clock.Resume(pending)
      case Suspend(left) => Twinkling(phase, left)
      case Wake => Show(After(phase))
  }

  /** The star after `n` resumptions. */
  function Resumed(star: Star, n: nat): Star
    decreases n
  {
    if n == 0 then star else Resumed(Resume(star), n - 1)
  }

  lemma {:induction false} RunSplits(star: Star, m: nat, n: nat)
    ensures Resumed(star, m + n) == Resumed(Resumed(star, m), n)
    decreases m
  {
    if m > 0 {
      RunSplits(Resume(star), m - 1, n);
    }
  }

  /** While a sleep has suspensions left the star keeps its attribute: each
      resumption only counts the sleep down by one. */
  lemma {:induction false} SleepRunsDown(phase: BlinkPhase, pending: nat, n: nat)
    requires n <= pending
    ensures Resumed(Twinkling(phase, pending), n) == Twinkling(phase, pending - n)
    decreases n
  {
    if n > 0 {
      SleepRunsDown(phase, pending - 1, n - 1);
    }
  }

  /** A phase lasts exactly its hold time: for fewer than `Hold(phase)`
      resumptions after it is drawn the star keeps it, and on the
      `Hold(phase)`-th the next attribute is drawn. */
  lemma PhaseLastsItsHold(phase: BlinkPhase)
    requires phase != Delay
    ensures forall n :: 0 <= n < Hold(phase) ==> Resumed(Show(phase), n) == Twinkling(phase, Hold(phase) - 1 - n)
    ensures Resumed(Show(phase), Hold(phase)) == Show(After(phase))
  {
    var k := Hold(phase) - 1;
    forall n | 0 <= n < Hold(phase)
      ensures Resumed(Show(phase), n) == Twinkling(phase, Hold(phase) - 1 - n)
    {
      SleepRunsDown(phase, k, n);
    }
    SleepRunsDown(phase, k, k);
    RunSplits(Twinkling(phase, k), k, 1);
  }

  /** The blink cycle is periodic with period 20 + 3 + 5 + 3 = 31 ticks:
      31 resumptions after the star turns dim it turns dim again. */
  lemma BlinkCycle()
    ensures Resumed(Show(Dim), 31) == Show(Dim)
  {
    PhaseLastsItsHold(Dim);
    PhaseLastsItsHold(Plain);
    PhaseLastsItsHold(Bold);
    PhaseLastsItsHold(Replain);
    RunSplits(Show(Dim), 20, 11);
    RunSplits(Show(Plain), 3, 8);
    RunSplits(Show(Bold), 5, 3);
  }

  /** `await sleep(delay)` comes first: the star draws nothing during its
      first `delay` resumptions and turns dim on the next one. */
  lemma StartsAfterDelay(delay: int)
    ensures forall n :: 1 <= n <= Clock.Start(delay) ==> Resumed(StarStart(delay), n) == Twinkling(Delay, Clock.Start(delay) - n)
    ensures Resumed(StarStart(delay), Clock.Start(delay) + 1) == Show(Dim)
  {
    var d := Clock.Start(delay);
    if d > 0 {
      forall n | 1 <= n <= d
        ensures Resumed(StarStart(delay), n) == Twinkling(Delay, Clock.Start(delay) - n)
      {
        RunSplits(StarStart(delay), 1, n - 1);
        SleepRunsDown(Delay, d - 1, n - 1);
      }
      RunSplits(StarStart(delay), 1, d);
      SleepRunsDown(Delay, d - 1, d - 1);
      RunSplits(Twinkling(Delay, d - 1), d - 1, 1);
    }
  }
}

=== FILE: state.dfy ===
/** The game's shared world and the state of every kind of coroutine, each
    written as an explicit state machine that is resumed once per tick. */
module State {

  /** Identity of a coroutine object in `COROUTINES`. */
  type TaskId = nat

  /** Identity of an `Obstacle` object: membership tests on the shared lists
      compare objects by identity. */
  type ObstacleId = nat

  /** An `Obstacle(row, column, rows, columns)` bounding box. */
  datatype Obstacle = Obstacle(id: ObstacleId, row: real, column: real, rows: int, columns: int)

  /** The module-level lists and the spaceship frame every coroutine sees:
      `OBSTACLES`, `OBSTACLES_IN_LAST_COLLISIONS`, `SPACESHIP_FRAME`, plus the
      source of fresh obstacle identities. */
  datatype Shared = Shared(
    obstacles: seq<Obstacle>,
    collided: seq<ObstacleId>,
    shipFrame: string,
    nextObstacle: ObstacleId)

  /** Every obstacle identity in use, registered or reported as collided,
      was handed out before: `nextObstacle` names no existing object. */
  predicate FreshIds(s: Shared)
  {
    && (forall j :: 0 <= j < |s.obstacles| ==> s.obstacles[j].id < s.nextObstacle)
    && (forall j :: 0 <= j < |s.collided| ==> s.collided[j] < s.nextObstacle)
  }

  /** What `read_controls` returns: two axis directions and the fire key. */
  datatype Controls = Controls(rowsDirection: int, columnsDirection: int, spacePressed: bool)

  /** Everything a resumption reads but does not own: the canvas extent
      `getmaxyx` would report now (a coroutine keeps what it read; only
      the resumption that calls it looks here), this tick's key state and random draws, the value of the
      falling-garbage loop guard, and the collaborators whose code lives in
      other modules (`Obstacle.has_collision`, `update_speed`,
      `get_frame_size`, and how many ticks `explode` suspends for). */
  datatype Context = Context(
    rows: int,
    columns: int,
    controls: Controls,
    spawnColumn: int,
    spawnArt: string,
    keepFalling: bool,
    hasCollision: (Obstacle, real, real) -> bool,
    updateSpeed: (real, real, int, int) -> (real, real),
    frameSize: string -> (int, int),
    explosionLength: (real, real) -> nat)

  /** One `draw_frame` call: `negative` erases the frame instead of drawing it. */
  datatype Paint = Paint(row: real, column: real, art: string, negative: bool)

  /** Exceptions that escape a resumption and end the scheduler loop. */
  datatype Fault =
    | PopOutOfRange       // `COROUTINES.pop(index)` past the end of the live list
    | ReusedCoroutine     // `send` on a coroutine that has already returned
    | EmptyRandomRange    // `random.randint(1, width - 1)` with `width < 2`
    | MissingFrame        // `frames[0]` on an empty frame tuple
    | EndlessAnimation    // `animate_spaceship` over no frames never suspends

  datatype Result<+T> = Ok(value: T) | Err(fault: Fault)

  /** `blink`: which attribute was drawn last (or still in the initial delay). */
  datatype BlinkPhase = Delay | Dim | Plain | Bold | Replain

  /** A star: not started yet, or suspended inside a `sleep` after drawing
      `phase`, with `pending` suspensions of that sleep still to make. */
  datatype Star = StarStart(delay: int) | Twinkling(phase: BlinkPhase, pending: nat)

  /** The pilot's locals in `run_spaceship`, including the canvas extent it
      read once, on its first resumption. */
  datatype Ship = Ship(
    row: real, column: real,
    rowSpeed: real, columnSpeed: real,
    frameRows: int, frameColumns: int,
    canvasRows: int, canvasColumns: int,
    centerRow: real, centerColumn: real)

  /** `run_spaceship`: not started, or suspended after drawing `shown`, the
      frame captured before the suspension. */
  datatype Pilot =
    | PilotStart(centerRow: real, centerColumn: real, frames: seq<string>)
    | Piloting(ship: Ship, shown: string)

  /** `animate_spaceship`: not started, or suspended inside `for frame in
      frames` with `current` set and `rest` still to iterate. */
  datatype Animator =
    | AnimatorStart(frames: seq<string>)
    | Animating(frames: seq<string>, current: string, rest: seq<string>)

  /** `fire`: not started, suspended after drawing '*' (`Flash`) or 'O'
      (`Glow`), flying inside the canvas extent it read once after the
      flash, or inside `explode`. */
  datatype ShotPhase = Loaded | Flash | Glow | Flying(rows: int, columns: int) | Exploding(pending: nat)

  datatype Shot = Shot(phase: ShotPhase, row: real, column: real, rowsSpeed: real, columnsSpeed: real)

  /** `fly_garbage`: not started, or suspended after drawing its obstacle. */
  datatype Debris =
    | Launch(column: int, art: string, speed: real)
    | Falling(id: ObstacleId, row: real, column: int, art: string, speed: real)

  /** `fill_orbit_with_garbage`: not started, or inside `sleep(12)`. */
  datatype Spawner = SpawnerStart(width: int) | SpawnerSleeping(width: int, pending: nat)

  /** A coroutine object; `Done` once it has returned. */
  datatype Task =
    | StarTask(star: Star)
    | PilotTask(pilot: Pilot)
    | AnimatorTask(animator: Animator)
    | ShotTask(shot: Shot)
    | GarbageTask(debris: Debris)
    | SpawnerTask(spawner: Spawner)
    | GameOverTask(row: real, column: real)
    | Done

  /** How a resumption ended: suspended in a new state, or returned. */
  datatype Run = Yield(task: Task) | Return

  /** One resumption: the shared state after it, the tasks it appended to
      `COROUTINES` in order, how it ended, and the frames it drew. */
  datatype Step = Step(shared: Shared, spawned: seq<Task>, run: Run, paints: seq<Paint>)
}

=== FILE: tasks.dfy ===
/** Resuming a coroutine of any kind: `coroutine.send(None)`. */
module Tasks {
  import opened State
  import Stars
  import Spaceship
  import Shots
  import Garbage

  /** One resumption of `task`, or the exception it raises. A coroutine that
      has already returned cannot be resumed again. `show_gameover` draws its
      banner and suspends, forever. */
  function Resume(ctx: Context, s: Shared, task: Task): Result<Step>
  {
    match task
    case Done => Err(ReusedCoroutine)
    case StarTask(star) => Ok(Step(s, [], Yield(StarTask(Stars.Resume(star))), []))
    case PilotTask(p) => Spaceship.Steer(ctx, s, p)
    case AnimatorTask(a) =>
      (match Spaceship.Animate(s, a)
       case Err(f) => Err(f)
       case Ok(r) => Ok(Step(r.0, [], Yield(AnimatorTask(r.1)), [])))
    case ShotTask(shot) => Ok(Shots.Fire(ctx, s, shot))
    case GarbageTask(d) => Ok(Garbage.Fly(ctx, s, d))
    case SpawnerTask(sp) =>
      (match Garbage.Spawn(ctx, sp)
       case Err(f) => Err(f)
       case Ok(r) => Ok(Step(s, r.0, Yield(SpawnerTask(r.1)), [])))
    case GameOverTask(row, column) => Ok(Step(s, [], Yield(task), []))
  }

  /** Only a projectile or a falling obstacle ever returns; every other
      coroutine is a `while True` loop. The pilot returns only on a crash. */
  lemma OnlyFiniteTasksReturn(ctx: Context, s: Shared, task: Task)
    requires Resume(ctx, s, task).Ok? && Resume(ctx, s, task).value.run.Return?
    ensures task.ShotTask? || task.GarbageTask? || (task.PilotTask? && task.pilot.Piloting?)
  {
  }

  /** A resumption only appends coroutines that have not run yet: a
      projectile before its flash, an obstacle before its launch, or a
      game-over banner (whose state never changes). */
  lemma SpawnsAreFresh(ctx: Context, s: Shared, task: Task)
    requires Resume(ctx, s, task).Ok?
    ensures forall k :: 0 <= k < |Resume(ctx, s, task).value.spawned| ==>
      var t := Resume(ctx, s, task).value.spawned[k];
      || (t.ShotTask? && t.shot.phase == Loaded)
      || (t.GarbageTask? && t.debris.Launch?)
      || t.GameOverTask?
  {
  }

  /** No resumption reuses an obstacle identity. */
  lemma ResumeKeepsFreshIds(ctx: Context, s: Shared, task: Task)
    requires FreshIds(s)
    requires Resume(ctx, s, task).Ok?
    ensures FreshIds(Resume(ctx, s, task).value.shared)
  {
    match task
    case ShotTask(shot) => Shots.FireKeepsFreshIds(ctx, s, shot);
    case GarbageTask(d) => Garbage.FlyKeepsFreshIds(ctx, s, d);
    case _ =>
  }
}
